=== FILE: README.md ===
# Spaced-repetition review tracker: scheduling and ledger model

This Dafny project models the core of a desktop review tracker (`app.py`,
class `ReviewApp` and the Drive/Calendar helpers it calls). The tracker keeps
a **ledger** of study topics in a CSV file on a shared remote drive: for each
topic, its files, its last- and next-review dates, the id of its calendar
reminder and the id of its remote folder. It also keeps an append-only
**study log** of reviews. The model covers:

- **Scheduling** (`schedule.dfy`). `mark_reviewed` computes the next
  interval. A first review uses 1, 3 or 7 days. A repeat review uses
  `max(1, round(elapsed * factor))` with factors 1.2, 1.5 and 2.0 and
  Python's round-half-to-even. The module also models the manual date edit
  and the storing of a new event id.
- **Calendar** (`calendar.dfy`). The calendar is an abstract map from event
  id to event. The module models:
  - `delete_future_events` as a best-effort delete of the topic's reminders
    that have not yet ended;
  - `_reschedule` as delete-then-create;
  - the calendar pass of `_on_loaded`;
  - the "Next Review" cell of `populate_table`.
- **Reconciliation** (`reconcile.dfy`). `_sync_csv_with_drive` merges the
  remote folder listing into the ledger. `_startup_sync` prunes the ledger
  and the log down to the listed topics.
- **Cache sync** (`cache_sync.dfy`). `_do_sync` runs over an abstract cache:
  a map from a directory name to the file names it holds.
- **Ledger operations** (`ledger_ops.dfy`):
  - adding a topic;
  - attaching and deleting a file, including the copy-back onto the first
    record of the same topic;
  - the search filter and file navigation;
  - the sort-order toggle;
  - the column projection `_write_file` applies.
- **Shared pieces.** `types.dfy` holds the records. `text.dfy` holds
  `strip`, `lower` and substring search. `seqs.dfy` holds the
  first-occurrence order of dict keys, the last element under a key (the
  value a dict keeps), the first element under a key (what a loop with
  `break` finds) and an order-keeping filter (a list comprehension).

Modelling choices:

- **Dates** are whole day numbers. A date cell is `Empty`, `Day(n)` or
  `Malformed(blank)`. `blank` records whether the text is only white space,
  because `populate_table` strips the last-review text and `mark_reviewed`
  does not.
- **Instants** are minutes. A reminder on day `d` ends at minute
  `d*1440 + 570` (09:30).
- **Calendar ids** are natural numbers handed out by a counter.
- **Remote listings** (`list_topic_folders`, `list_files_in_folder`) are
  parameters. The listing of files is a function from folder id to listing.
- **Deletes that fail** are a parameter set `failing` of event ids.
- **Rows.** Every operation on a table row takes the record's position in the
  full ledger.

Behaviour of the code worth knowing:

- Python's `round(10.5)` is 10. So a Medium answer seven days after a review
  schedules the next review 17 days after the first
  (`Schedule.MediumSevenDays`, `Schedule.RepeatReviewScenario`).
- A topic that the merge adds for a new folder gets an empty next-review
  date (`Reconcile.NewTopicHasNoReviewState`).
- At load time, expiry looks at the next-review date only. A never-reviewed
  record dated today is marked expired and gets no reminder. The table still
  shows its cell blank (`Calendar.LoadExpiryIgnoresLastReview`).
- `_save_bg` is empty (app.py:1124-1125). So adding a topic, attaching a
  file, storing a new event id and the load pass change the ledger in memory
  only. The ledger file is written by the next handler that calls
  `write_csv` (app.py:968, 1005, 1083).

## Model

| member | source | states |
|---|---|---|
| Text.Strip | app.py:815 | the stripped text is a slice of the input; only white space is cut from either end, and the result neither starts nor ends with white space |
| Text.StripEmptyIff | app.py:1129 | a name is rejected (strips to nothing) exactly when it is all white space |
| Text.LowerChar | app.py:815 | an upper-case ASCII letter becomes the lower-case letter at the same place in the alphabet; every other character is unchanged |
| Text.Lower | app.py:815 | the same length, each character lower-cased in place, characters other than upper-case letters kept, and no upper-case ASCII letter left |
| Text.LowerIdempotent | app.py:819 | lower-casing an already lower-cased topic or query changes nothing |
| Text.ContainsIff | app.py:819 | `t in s` holds exactly when `s` splits into some text, then `t`, then more text |
| Text.ContainsEmpty | app.py:819 | the empty text is in every topic |
| Seqs.Dedup | app.py:509-516 | the keys of a dict filled in order: exactly the input's elements, each once, no more of them than inputs |
| Seqs.DedupSnoc | app.py:509-516 | one more element adds a key at the end only when it is new, so keys keep first-occurrence order |
| Seqs.KeysOf | app.py:563 | one key per element, in the elements' order: the names a dict comprehension inserts |
| Seqs.LastKeyed | app.py:499 | the position of the last element under the key, or -1 when there is none; no later element has the key, so it is the value a dict keeps |
| Seqs.Filter | app.py:370 | a list comprehension with a condition keeps exactly the elements that pass and is never longer than its input |
| Seqs.FirstKeyed | app.py:1043-1046 | the position of the first element under the key, or -1 when there is none; no earlier element has that key |
| Seqs.FilterAppend | app.py:819 | a list comprehension with a condition works element by element: filtering a concatenation concatenates the filtered parts, so order and repeats are kept |
| Seqs.FilterAllIff | app.py:819 | a filter drops nothing exactly when every element passes, and then returns its input |
| Schedule.RoundTenths | app.py:997 | the result is within half a unit of x/10, and a tie goes to the even neighbour |
| Schedule.RoundTenthsUnique | app.py:997 | any round-half-to-even of x/10 is this one, so it is Python's `round` |
| Schedule.RoundTenthsMonotone | app.py:997 | rounding never reverses order |
| Schedule.Elapsed | app.py:995 | the gap is today minus the last review when that is positive, and exactly one day otherwise |
| Schedule.RepeatInterval | app.py:995-997 | the repeat interval is at least one day, between the gap and twice the gap, and is the rounded product of gap and factor |
| Schedule.NextInterval | app.py:988-997 | no last review gives the base interval; a readable last review gives the repeat interval of its elapsed gap, so at least that gap; an unreadable one gives no interval |
| Schedule.IntervalMonotoneInDifficulty | app.py:996-997 | for the same gap, Difficult ≤ Medium ≤ Easy |
| Schedule.BaseIntervalMonotone | app.py:990 | first intervals: Difficult < Medium < Easy |
| Schedule.IntervalMonotoneInElapsed | app.py:995-997 | a longer gap never shortens the interval |
| Schedule.DifficultIntervalExact | app.py:996-997 | factor 1.2 rounds to the nearest integer, (12e+5)/10 |
| Schedule.EasyIntervalExact | app.py:996-997 | factor 2.0 gives exactly twice the gap |
| Schedule.MediumIntervalExact | app.py:996-997 | factor 1.5 is exact on even gaps and a tie on odd gaps, broken to the even neighbour |
| Schedule.MediumSevenDays | app.py:995-997 | a gap of seven days gives 10 (Medium), 8 (Difficult) and 14 (Easy) days |
| Schedule.MarkReviewed | app.py:974-1002 | the log always gains the entry; an unreadable last review aborts with the ledger unchanged; otherwise only the reviewed record changes: last review today, next review strictly after today (today plus the base interval on a first review, plus the repeat interval of the elapsed gap otherwise), event id cleared, topic, files and folder kept |
| Schedule.FirstReviewScenario | app.py:988-1001 | a first review answered Easy on day D sets last review D and next review D+7 |
| Schedule.RepeatReviewScenario | app.py:992-1001 | reviewed on day D, then Medium on day D+7, gives next review D+17 |
| Schedule.ChangeNextReview | app.py:961-965 | the manual edit replaces only the next-review date and clears the event id of that one record |
| Schedule.SetEventId | app.py:1012-1013 | only the edited record's event id changes |
| Calendar.SubjectInjective | app.py:223 | different topics have different reminder summaries |
| Calendar.EventEnd | app.py:214-216 | a reminder ends within its own day |
| Calendar.DeleteFuture | app.py:240-253 | only the topic's reminders not yet ended are removed; every other event and every failed delete stays; afterwards the topic's pending reminders are all failed deletes |
| Calendar.DeleteFutureEvents | app.py:240-253 | the loop over listed events deletes exactly what `DeleteFuture` describes |
| Calendar.Reschedule | app.py:957-959 | the new reminder has a fresh id, the topic's summary and ends on the given day; other topics' events, past events and the events whose delete fails are kept unchanged; the only pending reminders of the topic are the new one and failed deletes |
| Calendar.RescheduleLeavesOneReminder | app.py:957-959 | with all deletes succeeding, the topic has exactly one pending reminder when the day is ahead, none otherwise |
| Calendar.RescheduleTwice | app.py:957-959 | rescheduling twice leaves only the second reminder |
| Calendar.OtherTopicsUntouched | app.py:240-253 | rescheduling a topic never alters another topic's reminders |
| Calendar.LoadActionFor | app.py:655-668 | an unreadable date clears the event id; a future date schedules a reminder on it; today or earlier marks the record expired |
| Calendar.ScheduleOnLoad | app.py:653-668 | the load pass changes only event ids; a record gets an id exactly when its date is ahead and is marked expired exactly when its date is today or past; each new event is the reminder of a scheduled record that points at its id, so no record gets two; an old event survives unchanged unless it is a pending reminder of a scheduled record's topic, and such a reminder is deleted unless its delete fails, in which case it stays unchanged; ids are handed out in ledger order; a scheduled record points at its own reminder when no later record of its topic is rescheduled; when one is, that reminder is deleted unless its delete fails or it has already ended by `now` |
| Calendar.LoadRecord | app.py:655-668 | one record of the pass keeps all its fields but the event id, gets an id exactly when its date is ahead and is marked expired exactly when its date is today or past |
| Calendar.NextReviewCell | app.py:845-864 | the cell is blank exactly when never reviewed or no date; "Expired" exactly when reviewed and the date is today or past; otherwise a date picker on the stored date, or on today exactly when the date is unreadable |
| Calendar.NeverReviewedNeverShownExpired | app.py:847-850 | a never-reviewed topic shows a blank cell whatever its date |
| Calendar.LoadExpiryIgnoresLastReview | app.py:662-668 | a past date is marked expired at load even when the table shows it blank |
| Calendar.ExpiryScenario | app.py:852-856 | a reviewed record dated yesterday is shown expired and gets no reminder |
| Calendar.ReviewedRecordIsScheduled | app.py:857-863 | a reviewed record with a future date shows a date picker on it and is scheduled at load |
| Reconcile.FreshRefs | app.py:510-516 | each listed file becomes an entry with its id, name and download link |
| Reconcile.LastRowFor | app.py:499 | the row a dict keyed by topic keeps is the last row of that topic |
| Reconcile.MergeFiles | app.py:509-525 | one entry per listed name, in first-listed order, names distinct; each entry is the last known entry of that name, else the last listed one |
| Reconcile.IndexByName | app.py:509-516 | the dict built from the listing has the listed names in first-occurrence order, each mapped to its last listed file |
| Reconcile.OverlayFiles | app.py:518-525 | overlaying the known entries on the listing dict computes `MergeFiles` |
| Reconcile.MergeRow | app.py:527-536 | the row takes topic and folder id from the folder, merged files, and the review fields of the topic's known row or empty ones |
| Reconcile.Merge | app.py:504-536 | one row per listed folder, in listing order |
| Reconcile.MergedFilesMatchListing | app.py:509-536 | after the merge a row lists exactly its folder's file names, each once |
| Reconcile.NewTopicHasNoReviewState | app.py:527-536 | a folder with no known row gets no review dates and no event id |
| Reconcile.MergeFilesIdempotent | app.py:509-525 | merging a merged file list with the same listing changes nothing |
| Reconcile.MergeIdempotent | app.py:497-536 | a second merge with the same listings, folder names distinct, returns the same ledger |
| Reconcile.KeepListed | app.py:370 | the kept rows are exactly those whose topic is listed |
| Reconcile.KeepListedAppend | app.py:370 | keeping works row by row, so it keeps order |
| Reconcile.KeepListedAllIff | app.py:370-372 | nothing is dropped exactly when every topic is listed |
| Reconcile.KeepListedIdempotent | app.py:370 | keeping twice is keeping once |
| Reconcile.StartupPrune | app.py:363-378 | ledger and log keep exactly the rows of listed topics, in order; each file is written back exactly when some row of it is unlisted |
| Reconcile.StartupPruneIdempotent | app.py:363-378 | a second prune with the same listing keeps everything and writes nothing |
| CacheSync.DriveMap | app.py:563 | the keys are exactly the listed folder names |
| CacheSync.DriveMapLastWins | app.py:563 | a name maps to the id of the last folder listed under it |
| CacheSync.DriveMapKeys | app.py:563 | the map's key set is the set of folder names |
| CacheSync.FetchMissing | app.py:576-583 | the directory ends with all listed names; exactly the absent names are fetched, once each, each from the first listed file of that name |
| CacheSync.NothingFetchedIff | app.py:570-583 | nothing is fetched exactly when every directory already held its listed names |
| CacheSync.SyncCache | app.py:560-585 | the cache keeps exactly the listed directories, each holding its old files plus its listed names; exactly the missing files are fetched, none twice |
| LedgerOps.AddTopic | app.py:1127-1145 | blank text adds nothing; otherwise one record is appended with the stripped name, no files, no last review, today as next review and the new folder id |
| LedgerOps.AddTopicAddsOnce | app.py:1127-1145 | a non-blank name adds exactly one more copy of the new record |
| LedgerOps.AddTopicAsWritten | app.py:1144-1145 | as written: when the shown list is the ledger itself, the new record is appended twice |
| LedgerOps.AliasedAddDuplicates | app.py:816-818 | after a blank search the shown list is the ledger, and adding any non-blank name then puts two more copies of the new record in the ledger |
| LedgerOps.AddedTopicNameIsTrimmed | app.py:1133-1137 | an added topic's name is non-empty with no white space at either end |
| LedgerOps.AddedTopicDueToday | app.py:1136-1145 | a new topic, once a later handler has written it and a load reads it on the same day, is marked expired and shown with a blank cell |
| LedgerOps.FirstWithTopic | app.py:1043-1045 | the position of the first record with the topic, or none |
| LedgerOps.SetFiles | app.py:1043-1046 | the edited record gets the new file list and is copied onto the first record of its topic; no other record changes |
| LedgerOps.FileEditTouchesOneRecord | app.py:1043-1046 | with unique topics a file edit changes the edited record only |
| LedgerOps.AttachFile | app.py:1038-1046 | the uploaded file is appended to the record's list and nothing else in it changes; the record is copied onto the first record of its topic; every other record is unchanged |
| LedgerOps.WithoutId | app.py:1073 | the remaining entries are exactly those with a different id |
| LedgerOps.WithoutIdAppend | app.py:1073 | the removal works entry by entry, so the kept entries keep their order and repeats |
| LedgerOps.WithoutIdShrinks | app.py:1073 | removing the id of an entry in the list makes the list shorter |
| LedgerOps.WithoutAbsentId | app.py:1073 | removing an id no entry has returns the list itself |
| LedgerOps.DeleteFile | app.py:1070-1079 | the record's list becomes its list without the deleted file's id, in order, so it gets shorter; the record is copied onto the first record of its topic; every other record is unchanged |
| LedgerOps.Matching | app.py:819 | the shown records are exactly those whose lower-cased topic contains the query |
| LedgerOps.MatchingAppend | app.py:819 | matching works record by record, so the shown records keep the ledger's order and repeats |
| LedgerOps.SearchAppend | app.py:814-819 | searching a concatenation concatenates the searches of its parts |
| LedgerOps.Search | app.py:814-821 | an all-blank query shows the whole ledger; otherwise exactly the records whose topic contains the stripped query, ignoring ASCII case |
| LedgerOps.EmptyQueryKeepsAll | app.py:815-819 | filtering by the empty query would also keep every record |
| LedgerOps.FileAt | app.py:758-765 | no file when the list is empty; otherwise the file whose position differs from the counter by whole rounds |
| LedgerOps.NextAfterLastWraps | app.py:1170-1174 | stepping past the last file shows the first |
| LedgerOps.PrevBeforeFirstWraps | app.py:1176-1180 | stepping back from the first file shows the last |
| LedgerOps.FileAtPeriodic | app.py:764 | a full round of steps shows the same file |
| LedgerOps.HeaderClicked | app.py:869-878 | other columns change nothing; a sortable column gets the opposite of its remembered order, ascending when none is remembered |
| LedgerOps.FirstClickDescending | app.py:872-877 | the first click sorts descending, the second ascending |
| LedgerOps.TwoClicksRestore | app.py:872-878 | two clicks restore the column's order and leave the others alone |
| LedgerOps.Project | app.py:162 | the written row holds exactly the file's columns present in the row, with their values |
| LedgerOps.ProjectIdempotent | app.py:162 | projecting twice is projecting once |
| LedgerOps.ExpiredMarkNotWritten | app.py:60-63 | the in-memory expired mark never reaches the ledger file |
| LedgerOps.ManualEditDecidesLoad | app.py:961-965 | a manual edit keeps the review history; a future date is scheduled at load, a past one marked expired |
| LedgerOps.ReviewedTopicHasReminder | app.py:974-1013 | review, reschedule and store: the record points at a reminder for its topic ending on its new next-review day |

## Left out

- Drive and Calendar I/O, authentication, HTTP and paging: listings are parameters and the calendar is an abstract map. Pagination of event listings is not modelled because it lists the same events.
- The Qt user interface, dialogs, progress dialogs, the PDF viewer and worker threads: each handler is modelled as one atomic step. Event ids arriving late from a worker are modelled as a separate `Schedule.SetEventId` step.
- The local file system: the cache is a map from directory name to file names. A failed download still leaves the empty file it opened, so the name counts as present.
- The per-file download loop of `_on_loaded` (app.py:634-651): it only fills the cache. Its drop branch never fires, because the download helper already ignores a missing remote file (app.py:200-202). So the ledger's file lists pass through it unchanged.
- Names the source uses but never defines (`os` at app.py:192, `googleapiclient` at app.py:646, `uploader.write_log` at app.py:378): the model gives the intended behaviour. `Reconcile.StartupPrune` reports that the log is to be written; it does not model the crash.
- CSV and JSON encoding and decoding: records are datatypes. A stored date that does not parse is `Malformed`.
- Schedule.MarkReviewed: an unreadable last-review date raises in the source after the log entry is written. The model returns `Aborted` with that log instead of modelling the exception.
- The sort itself of `handle_header_clicked` (app.py:879-894): it is Python's stable sort by a key. Only the order toggle is modelled.
- `remove_topic` (app.py:1149-1168), `compute_stats` and the dashboard: not part of the scheduling and ledger core.
- The initial prepopulation of a new ledger file (app.py:92-124): a one-time file creation on the remote drive.
- Time zones and the UTC/local difference between `now` and the calendar day: both are plain integers on one clock.
- Text.Lower: folds ASCII letters only; Python's `str.lower()` also folds other Unicode letters.
- Schedule.RoundTenths: works on exact tenths; the float products 1.2·e and 1.5·e are not modelled with binary rounding, which agrees for gaps far below 2^50 days.
- Saving: the handlers that call `_save_bg` (app.py:669, 1014, 1047, 1146) do not write the ledger file, because `_save_bg` does nothing. Their models return the in-memory ledger, and writing it is left to the handlers that call `write_csv`.
- Download errors other than 404: `download_file_to_path` re-raises them (app.py:200-202), which ends `_do_sync` at app.py:583 with the cache half-filled. CacheSync.SyncCache assumes every download returns.
- The shown list after a non-blank search: `add_topic` also appends the new record to it (app.py:1145) even when its name does not match the query. Only the ledger is modelled, which gains a second copy when the shown list is the ledger itself (`LedgerOps.AddTopicAsWritten`).
- Reconcile.MergeIdempotent: holds only when folder names are distinct; with duplicate names the second merge reads the last row of each name for every folder of that name.

## Findings

| source | as written | input that shows it | evidently intended | confidence | as-written member | corrected member |
|---|---|---|---|---|---|---|
| app.py:1144-1145 | `add_topic` appends the new record to `full_data` and to `data`; after a blank search `data` is `full_data` itself (app.py:816-818), so the ledger gains the record twice | search for "x", clear the search box, then add topic "Bio" | append the record to the ledger once | high, not executed | LedgerOps.AliasedAddDuplicates | LedgerOps.AddTopicAddsOnce |

=== FILE: cache_sync.dfy ===
/**
  The local cache synchronizer (`_do_sync`), on an abstract cache: a map from
  topic directory name to the names of the files in it.
 */
module CacheSync {
  import opened Types
  import opened Seqs

  type Cache = map<string, set<string>>

  /** A file fetched into the cache: the topic directory, the remote id read
      and the local name written. */
  datatype Download = Download(topic: string, fileId: string, name: string)

  /** The files a topic directory holds, none when it does not exist. */
  function Dir(cache: Cache, topic: string): set<string>
  {
    if topic in cache then cache[topic] else {}
  }

  /** The listed names, in order. */
  function FolderNameSeq(folders: seq<Folder>): (ns: seq<string>)
    ensures |ns| == |folders|
    ensures forall k :: 0 <= k < |folders| ==> ns[k] == folders[k].name
  {
    KeysOf(folders, FolderName)
  }

  /** Dropping the last folder drops the last name. */
  lemma FolderNameSeqInit(folders: seq<Folder>)
    requires |folders| > 0
    ensures FolderNameSeq(folders[..|folders| - 1]) == FolderNameSeq(folders)[..|folders| - 1]
  {
  }

  /** `drive_map` (app.py:563): from folder name to folder id; of several
      folders with one name, the last listed wins. */
  function DriveMap(folders: seq<Folder>): (m: map<string, string>)
    ensures forall n :: n in m <==> n in FolderNameSeq(folders)
    decreases |folders|
  {
    if |folders| == 0 then map[]
    else
      var init := folders[..|folders| - 1];
      FolderNameSeqInit(folders);
      assert FolderNameSeq(folders) == FolderNameSeq(init) + [folders[|folders| - 1].name];
      DriveMap(init)[folders[|folders| - 1].name := folders[|folders| - 1].id]
  }

  /** A name maps to the id of the last folder listed under it. */
  lemma {:induction false} DriveMapLastWins(folders: seq<Folder>, k: nat)
    requires k < |folders|
    requires forall j :: k < j < |folders| ==> folders[j].name != folders[k].name
    ensures folders[k].name in DriveMap(folders) && DriveMap(folders)[folders[k].name] == folders[k].id
    decreases |folders|
  {
    var last := |folders| - 1;
    if k < last {
      DriveMapLastWins(folders[..last], k);
    }
  }

  /** The map has a key for every listed folder name and no other. */
  lemma DriveMapKeys(folders: seq<Folder>)
    ensures DriveMap(folders).Keys == FolderNames(folders)
  {
    forall n
      ensures n in DriveMap(folders) <==> n in FolderNames(folders)
    {
      if n in FolderNames(folders) {
        var f :| f in folders && f.name == n;
        var k :| 0 <= k < |folders| && folders[k] == f;
        assert FolderNameSeq(folders)[k] == n;
      }
    }
  }

  /** The position of the first listed file called `name`, or -1. */
  function FirstListed(listing: seq<Listed>, name: string): (k: int)
    ensures -1 <= k < |listing|
    ensures k >= 0 ==> listing[k].name == name
    ensures forall j :: 0 <= j < |listing| && (k < 0 || j < k) ==> listing[j].name != name
  {
    FirstKeyed(listing, ListedName, name)
  }

  /** The names fetched into directory `topic`. */
  function FetchedFor(fetched: seq<Download>, topic: string): set<string>
  {
    set d | d in fetched && d.topic == topic :: d.name
  }

  lemma FetchedForAppend(a: seq<Download>, b: seq<Download>, topic: string)
    ensures FetchedFor(a + b, topic) == FetchedFor(a, topic) + FetchedFor(b, topic)
  {
    assert forall d :: d in a + b <==> d in a || d in b;
  }

  /** A download reads the first listed file of its name. */
  predicate ReadsFirstListed(d: Download, listing: seq<Listed>)
  {
    FirstListed(listing, d.name) >= 0 && d.fileId == listing[FirstListed(listing, d.name)].id
  }

  /** The inner loop of `_do_sync` (app.py:580-583) for one topic directory:
      each listed file is fetched when no file of its name is there yet. A
      fetch that finds the remote file gone still leaves the (empty) local
      file it opened, so afterwards every listed name is present. */
  method FetchMissing(topic: string, dir: set<string>, listing: seq<Listed>)
    returns (dir': set<string>, fetched: seq<Download>)
    ensures dir' == dir + ListedNames(listing)
    ensures FetchedFor(fetched, topic) == ListedNames(listing) - dir
    ensures forall d :: d in fetched ==> d.topic == topic && d.name !in dir && ReadsFirstListed(d, listing)
    ensures forall a, b :: 0 <= a < b < |fetched| ==> fetched[a].name != fetched[b].name
  {
    dir' := dir;
    fetched := [];
    var i := 0;
    while i < |listing|
      invariant 0 <= i <= |listing|
      invariant FetchedUpTo(topic, dir, listing, i, dir', fetched)
    {
      var f := listing[i];
      FetchStep(topic, dir, listing, i, dir', fetched);
      if f.name !in dir' {
        fetched := fetched + [Download(topic, f.id, f.name)];
        dir' := dir' + {f.name};
      }
      i := i + 1;
    }
    assert listing[..i] == listing;
  }

  /** The state of the fetch loop after the first `i` listed files. */
  ghost predicate FetchedUpTo(topic: string, dir: set<string>, listing: seq<Listed>, i: nat,
                              dir': set<string>, fetched: seq<Download>)
  {
    FetchedNames(topic, dir, listing, i, dir', fetched) && FetchedReads(topic, dir, listing, fetched)
  }

  /** The directory holds its old names and the first `i` listed ones, and
      exactly the new ones among those were fetched. */
  ghost predicate FetchedNames(topic: string, dir: set<string>, listing: seq<Listed>, i: nat,
                               dir': set<string>, fetched: seq<Download>)
  {
    && i <= |listing|
    && dir' == dir + ListedNames(listing[..i])
    && FetchedFor(fetched, topic) == ListedNames(listing[..i]) - dir
    && (forall d :: d in fetched ==> d.name in ListedNames(listing[..i]))
  }

  /** Every download is for this directory, of a name it lacked, read from
      the first listing entry of that name, and no name is fetched twice. */
  ghost predicate FetchedReads(topic: string, dir: set<string>, listing: seq<Listed>, fetched: seq<Download>)
  {
    && (forall d :: d in fetched ==> d.topic == topic && d.name !in dir && ReadsFirstListed(d, listing))
    && (forall a, b :: 0 <= a < b < |fetched| ==> fetched[a].name != fetched[b].name)
  }

  /** Handling one more listed file keeps `FetchedUpTo`: a name already in
      the directory is skipped, any other is fetched from this entry. */
  lemma FetchStep(topic: string, dir: set<string>, listing: seq<Listed>, i: nat,
                  dir': set<string>, fetched: seq<Download>)
    requires i < |listing| && FetchedUpTo(topic, dir, listing, i, dir', fetched)
    ensures var f := listing[i];
      if f.name in dir' then FetchedUpTo(topic, dir, listing, i + 1, dir', fetched)
      else FetchedUpTo(topic, dir, listing, i + 1, dir' + {f.name}, fetched + [Download(topic, f.id, f.name)])
  {
    var f := listing[i];
    assert listing[..i + 1] == listing[..i] + [f];
    assert ListedNames(listing[..i + 1]) == ListedNames(listing[..i]) + {f.name};
    if f.name !in dir' {
      FetchNewNames(topic, dir, listing, i, dir', fetched);
      FetchNewReads(topic, dir, listing, i, dir', fetched);
    }
  }

  /** Fetching a new name adds it to the directory and to the fetched set. */
  lemma FetchNewNames(topic: string, dir: set<string>, listing: seq<Listed>, i: nat,
                      dir': set<string>, fetched: seq<Download>)
    requires i < |listing| && FetchedNames(topic, dir, listing, i, dir', fetched)
    requires listing[i].name !in dir'
    ensures var f := listing[i];
      FetchedNames(topic, dir, listing, i + 1, dir' + {f.name}, fetched + [Download(topic, f.id, f.name)])
  {
    var f := listing[i];
    var d := Download(topic, f.id, f.name);
    assert listing[..i + 1] == listing[..i] + [f];
    assert ListedNames(listing[..i + 1]) == ListedNames(listing[..i]) + {f.name};
    FetchedForAppend(fetched, [d], topic);
    assert FetchedFor([d], topic) == {f.name};
  }

  /** A listed name not yet in the directory is fetched from its first
      listing entry, which is this one, and was not fetched before. */
  lemma FetchNewReads(topic: string, dir: set<string>, listing: seq<Listed>, i: nat,
                      dir': set<string>, fetched: seq<Download>)
    requires i < |listing| && FetchedUpTo(topic, dir, listing, i, dir', fetched)
    requires listing[i].name !in dir'
    ensures var f := listing[i];
      FetchedReads(topic, dir, listing, fetched + [Download(topic, f.id, f.name)])
  {
    var f := listing[i];
    var d := Download(topic, f.id, f.name);
    var fetched2 := fetched + [d];
    forall j | 0 <= j < i
      ensures listing[j].name != f.name
    {
      assert listing[..i][j] == listing[j];
    }
    assert FirstListed(listing, f.name) == i;
    assert forall a :: 0 <= a < |fetched| ==> fetched2[a] == fetched[a] && fetched[a] in fetched;
  }

  /** No directory receives the same name twice. */
  predicate NoRepeat(fetched: seq<Download>)
  {
    forall a, b :: 0 <= a < b < |fetched| ==>
      fetched[a].topic != fetched[b].topic || fetched[a].name != fetched[b].name
  }

  lemma NoRepeatAppend(a: seq<Download>, b: seq<Download>, topic: string)
    requires NoRepeat(a)
    requires forall d :: d in a ==> d.topic != topic
    requires forall d :: d in b ==> d.topic == topic
    requires forall x, y :: 0 <= x < y < |b| ==> b[x].name != b[y].name
    ensures NoRepeat(a + b)
  {
    var c := a + b;
    forall x, y | 0 <= x < y < |c|
      ensures c[x].topic != c[y].topic || c[x].name != c[y].name
    {
      if y < |a| {
      } else if x < |a| {
        assert c[x] in a && c[y] in b;
      } else {
        assert c[x] == b[x - |a|] && c[y] == b[y - |a|];
      }
    }
  }

  /** The state of `_do_sync` once the directories in `done` are handled:
      `cache'` is `cache` pruned to the listed names, with every directory in
      `done` completed and each missing file fetched into it once. */
  ghost predicate SyncedUpTo(cache: Cache, cache': Cache, fetched: seq<Download>, m: map<string, string>,
                       filesIn: string -> seq<Listed>, done: set<string>)
  {
    SyncedDirs(cache, cache', m, filesIn, done) && SyncedFetches(cache, fetched, m, filesIn, done)
  }

  /** Directories synced so far hold their old names plus the listed ones;
      the others are untouched. */
  ghost predicate SyncedDirs(cache: Cache, cache': Cache, m: map<string, string>,
                             filesIn: string -> seq<Listed>, done: set<string>)
  {
    && done <= m.Keys
    && (forall n :: n in cache' <==> (n in cache && n in m) || n in done)
    && (forall n :: n in cache' && n !in done ==> cache'[n] == cache[n])
    && (forall n :: n in done ==> cache'[n] == Dir(cache, n) + ListedNames(filesIn(m[n])))
  }

  /** The downloads so far are exactly the missing names of the synced
      directories, each read from its first listing entry, none twice. */
  ghost predicate SyncedFetches(cache: Cache, fetched: seq<Download>, m: map<string, string>,
                                filesIn: string -> seq<Listed>, done: set<string>)
    requires done <= m.Keys
  {
    && (forall n :: n in done ==> FetchedFor(fetched, n) == ListedNames(filesIn(m[n])) - Dir(cache, n))
    && (forall d :: d in fetched ==>
         d.topic in done && d.name !in Dir(cache, d.topic) && ReadsFirstListed(d, filesIn(m[d.topic])))
    && NoRepeat(fetched)
  }

  /** Handling one more directory keeps `SyncedUpTo`. */
  lemma SyncStep(cache: Cache, cache': Cache, fetched: seq<Download>, m: map<string, string>,
                 filesIn: string -> seq<Listed>, done: set<string>, n: string, dir': set<string>, got: seq<Download>)
    requires SyncedUpTo(cache, cache', fetched, m, filesIn, done)
    requires n in m && n !in done
    requires dir' == Dir(cache, n) + ListedNames(filesIn(m[n]))
    requires FetchedFor(got, n) == ListedNames(filesIn(m[n])) - Dir(cache, n)
    requires forall d :: d in got ==> d.topic == n && d.name !in Dir(cache, n) && ReadsFirstListed(d, filesIn(m[n]))
    requires forall a, b :: 0 <= a < b < |got| ==> got[a].name != got[b].name
    ensures SyncedUpTo(cache, cache'[n := dir'], fetched + got, m, filesIn, done + {n})
  {
    SyncFetchStep(cache, fetched, m, filesIn, done, n, got);
  }

  /** The fetch half of `SyncStep`: the new downloads are all for `n`, so the
      fetched sets of the directories already done do not change. */
  lemma SyncFetchStep(cache: Cache, fetched: seq<Download>, m: map<string, string>,
                      filesIn: string -> seq<Listed>, done: set<string>, n: string, got: seq<Download>)
    requires done <= m.Keys && SyncedFetches(cache, fetched, m, filesIn, done)
    requires n in m && n !in done
    requires FetchedFor(got, n) == ListedNames(filesIn(m[n])) - Dir(cache, n)
    requires forall d :: d in got ==> d.topic == n && d.name !in Dir(cache, n) && ReadsFirstListed(d, filesIn(m[n]))
    requires forall a, b :: 0 <= a < b < |got| ==> got[a].name != got[b].name
    ensures SyncedFetches(cache, fetched + got, m, filesIn, done + {n})
  {
    NoRepeatAppend(fetched, got, n);
    forall t | t in done
      ensures FetchedFor(fetched + got, t) == FetchedFor(fetched, t)
    {
      FetchedForAppend(fetched, got, t);
      assert FetchedFor(got, t) == {};
    }
    FetchedForAppend(fetched, got, n);
    assert FetchedFor(fetched, n) == {};
  }

  /** A completed sync fetched nothing exactly when every listed file was
      already in its directory. */
  lemma NothingFetchedIff(cache: Cache, cache': Cache, fetched: seq<Download>, m: map<string, string>,
                          filesIn: string -> seq<Listed>)
    requires SyncedUpTo(cache, cache', fetched, m, filesIn, m.Keys)
    ensures |fetched| == 0 <==> forall n :: n in cache' ==> ListedNames(filesIn(m[n])) <= Dir(cache, n)
  {
    if |fetched| > 0 {
      var d := fetched[0];
      assert d.name in FetchedFor(fetched, d.topic);
    } else {
      forall n | n in cache'
        ensures ListedNames(filesIn(m[n])) <= Dir(cache, n)
      {
        assert n in m.Keys;
        assert FetchedFor(fetched, n) == {};
        forall x | x in ListedNames(filesIn(m[n]))
          ensures x in Dir(cache, n)
        {
          assert x !in ListedNames(filesIn(m[n])) - Dir(cache, n);
        }
      }
    }
  }

  /** `_do_sync` (app.py:560-585): drop every directory whose name is not a
      listed folder, then, for each listed name in first-listed order, make
      its directory and fetch the files its folder lists that are absent. */
  method SyncCache(cache: Cache, folders: seq<Folder>, filesIn: string -> seq<Listed>)
    returns (cache': Cache, fetched: seq<Download>)
    ensures cache'.Keys == FolderNames(folders)
    ensures forall n :: n in cache' ==> cache'[n] == Dir(cache, n) + ListedNames(filesIn(DriveMap(folders)[n]))
    ensures forall n :: n in cache' ==>
      FetchedFor(fetched, n) == ListedNames(filesIn(DriveMap(folders)[n])) - Dir(cache, n)
    ensures forall d :: d in fetched ==>
      d.topic in cache' && d.name !in Dir(cache, d.topic) && ReadsFirstListed(d, filesIn(DriveMap(folders)[d.topic]))
    ensures NoRepeat(fetched)
    ensures |fetched| == 0 <==>
      forall n :: n in cache' ==> ListedNames(filesIn(DriveMap(folders)[n])) <= Dir(cache, n)
  {
    var m := DriveMap(folders);
    var keys := Dedup(FolderNameSeq(folders));
    cache' := map n | n in cache && n in m :: cache[n];
    fetched := [];
    ghost var done: set<string> := {};
    var i := 0;
    while i < |keys|
      invariant 0 <= i <= |keys|
      invariant forall x :: x in done <==> x in keys[..i]
      invariant SyncedUpTo(cache, cache', fetched, m, filesIn, done)
    {
      var n := keys[i];
      KeyIsFresh(keys, i);
      assert n in FolderNameSeq(folders);
      var dir := if n in cache' then cache'[n] else {};
      assert dir == Dir(cache, n);
      var dir', got := FetchMissing(n, dir, filesIn(m[n]));
      SyncStep(cache, cache', fetched, m, filesIn, done, n, dir', got);
      cache' := cache'[n := dir'];
      fetched := fetched + got;
      DoneStep(keys, i, done);
      done := done + {n};
      i := i + 1;
    }
    DoneAll(keys, done, m);
    SyncFinal(cache, cache', fetched, folders, filesIn);
  }

  /** A sync that has handled every listed name has the effect `SyncCache`
      promises. */
  lemma SyncFinal(cache: Cache, cache': Cache, fetched: seq<Download>, folders: seq<Folder>, filesIn: string -> seq<Listed>)
    requires SyncedUpTo(cache, cache', fetched, DriveMap(folders), filesIn, DriveMap(folders).Keys)
    ensures cache'.Keys == FolderNames(folders)
    ensures forall n :: n in cache' ==> cache'[n] == Dir(cache, n) + ListedNames(filesIn(DriveMap(folders)[n]))
    ensures forall n :: n in cache' ==>
      FetchedFor(fetched, n) == ListedNames(filesIn(DriveMap(folders)[n])) - Dir(cache, n)
    ensures forall d :: d in fetched ==>
      d.topic in cache' && d.name !in Dir(cache, d.topic) && ReadsFirstListed(d, filesIn(DriveMap(folders)[d.topic]))
    ensures NoRepeat(fetched)
    ensures |fetched| == 0 <==>
      forall n :: n in cache' ==> ListedNames(filesIn(DriveMap(folders)[n])) <= Dir(cache, n)
  {
    DriveMapKeys(folders);
    NothingFetchedIff(cache, cache', fetched, DriveMap(folders), filesIn);
  }

  /** A key of a duplicate-free sequence does not occur before its position. */
  lemma KeyIsFresh(keys: seq<string>, i: nat)
    requires i < |keys| && Distinct(keys)
    ensures keys[i] !in keys[..i]
  {
  }

  /** The handled names grow by the next key. */
  lemma DoneStep(keys: seq<string>, i: nat, done: set<string>)
    requires i < |keys|
    requires forall x :: x in done <==> x in keys[..i]
    ensures forall x :: x in done + {keys[i]} <==> x in keys[..i + 1]
  {
    assert keys[..i + 1] == keys[..i] + [keys[i]];
  }

  /** Once every key is handled, the handled names are the map's keys. */
  lemma DoneAll(keys: seq<string>, done: set<string>, m: map<string, string>)
    requires forall x :: x in done <==> x in keys[..|keys|]
    requires forall x :: x in keys <==> x in m
    ensures done == m.Keys
  {
    assert keys[..|keys|] == keys;
  }
}

=== FILE: calendar.dfy ===
/**
  The reminder calendar as an abstract state, the delete-then-create
  rescheduling of a topic's reminder, the load-time calendar pass over the
  ledger and the next-review cell of the table.

  Instants are minutes on one clock; a calendar day `d` starts at minute
  `d * 1440`.
 */
module Calendar {
  import opened Types

  /** A calendar event: its summary line and the instant it ends. */
  datatype Event = Event(summary: string, end: int)

  /** The events by id, and the id the next created event receives. */
  datatype CalendarState = CalendarState(events: map<EventId, Event>, nextId: nat)

  /** Every existing id was handed out before `nextId`. */
  predicate Valid(cal: CalendarState)
  {
    forall id :: id in cal.events ==> id < cal.nextId
  }

  /** The summary of a topic's reminder (app.py:223, matched at app.py:246). */
  function Subject(topic: string): string
  {
    "Review: " + topic
  }

  /** Different topics have different reminder summaries. */
  lemma SubjectInjective(t1: string, t2: string)
    requires Subject(t1) == Subject(t2)
    ensures t1 == t2
  {
    assert t1 == Subject(t1)[8..];
  }

  /** A reminder on day `day` runs from 09:00 for thirty minutes. */
  function EventEnd(day: int): (m: int)
    ensures day * 1440 < m < (day + 1) * 1440
  {
    day * 1440 + 9 * 60 + 30
  }

  /** The events `delete_future_events(topic)` lists and tries to delete: the
      summary matches exactly and the event ends after `now`. */
  predicate Targets(e: Event, topic: string, now: int)
  {
    e.summary == Subject(topic) && e.end > now
  }

  /** Ids of the topic's reminders that have not ended by `now`. */
  function FutureReminders(cal: CalendarState, topic: string, now: int): set<EventId>
  {
    set id | id in cal.events && Targets(cal.events[id], topic, now)
  }

  /** The effect of `delete_future_events(topic)` at instant `now`. Deletion
      is best effort: the deletes of the ids in `failing` fail and are
      ignored. */
  function DeleteFuture(cal: CalendarState, topic: string, now: int, failing: set<EventId>): (c: CalendarState)
    ensures c.nextId == cal.nextId
    ensures c.events.Keys <= cal.events.Keys
    ensures forall id :: id in c.events ==> c.events[id] == cal.events[id]
    ensures forall id :: id in cal.events && !Targets(cal.events[id], topic, now) ==> id in c.events
    ensures forall id :: id in cal.events && id in failing ==> id in c.events
    ensures FutureReminders(c, topic, now) <= failing
  {
    CalendarState(
      map id | id in cal.events && (!Targets(cal.events[id], topic, now) || id in failing) :: cal.events[id],
      cal.nextId)
  }

  /** The scan of `delete_future_events`: every listed event is visited once
      and deleted when its summary matches. */
  method DeleteFutureEvents(cal: CalendarState, topic: string, now: int, failing: set<EventId>)
    returns (c: CalendarState)
    ensures c == DeleteFuture(cal, topic, now, failing)
  {
    var events := cal.events;
    var pending := cal.events.Keys;
    while pending != {}
      invariant pending <= cal.events.Keys
      invariant events.Keys <= cal.events.Keys
      invariant forall id :: id in events ==> events[id] == cal.events[id]
      invariant forall id :: id in pending ==> id in events
      invariant forall id :: id in cal.events && id !in pending ==>
        (id in events <==> !Targets(cal.events[id], topic, now) || id in failing)
      decreases pending
    {
      var id :| id in pending;
      if Targets(events[id], topic, now) && id !in failing {
        events := events - {id};
      }
      pending := pending - {id};
    }
    c := CalendarState(events, cal.nextId);
  }

  /** A created reminder and the calendar holding it. */
  datatype Scheduled = Scheduled(cal: CalendarState, id: EventId)

  /** `_reschedule(topic, day)`: delete the topic's future reminders, then
      create one reminder on `day`. */
  function Reschedule(cal: CalendarState, topic: string, day: int, now: int, failing: set<EventId>): (s: Scheduled)
    requires Valid(cal)
    ensures Valid(s.cal)
    ensures s.id == cal.nextId && s.cal.nextId == cal.nextId + 1
    ensures s.id !in cal.events
    ensures s.id in s.cal.events && s.cal.events[s.id] == Event(Subject(topic), EventEnd(day))
    ensures forall id :: id in s.cal.events && id != s.id ==> id in cal.events && s.cal.events[id] == cal.events[id]
    ensures forall id :: id in cal.events && !Targets(cal.events[id], topic, now) ==> id in s.cal.events
    ensures forall id :: id in cal.events && id in failing ==> id in s.cal.events && s.cal.events[id] == cal.events[id]
    ensures FutureReminders(s.cal, topic, now) <= failing + {s.id}
  {
    var c := DeleteFuture(cal, topic, now, failing);
    Scheduled(CalendarState(c.events[c.nextId := Event(Subject(topic), EventEnd(day))], c.nextId + 1), c.nextId)
  }

  /** When every delete succeeds, the topic is left with exactly one pending
      reminder, the new one, provided its day has not already passed. */
  lemma RescheduleLeavesOneReminder(cal: CalendarState, topic: string, day: int, now: int)
    requires Valid(cal)
    ensures var s := Reschedule(cal, topic, day, now, {});
      FutureReminders(s.cal, topic, now) == if EventEnd(day) > now then {s.id} else {}
  {
    var s := Reschedule(cal, topic, day, now, {});
    if EventEnd(day) > now {
      assert s.id in FutureReminders(s.cal, topic, now);
    }
  }

  /** Rescheduling twice in a row for the same topic and day leaves the topic
      with at most one pending reminder; the first call's reminder is gone. */
  lemma {:induction false} RescheduleTwice(cal: CalendarState, topic: string, day: int, now: int)
    requires Valid(cal)
    requires EventEnd(day) > now
    ensures var s1 := Reschedule(cal, topic, day, now, {});
      var s2 := Reschedule(s1.cal, topic, day, now, {});
      && FutureReminders(s2.cal, topic, now) == {s2.id}
      && s1.id !in s2.cal.events
  {
    var s1 := Reschedule(cal, topic, day, now, {});
    RescheduleLeavesOneReminder(s1.cal, topic, day, now);
    assert Targets(s1.cal.events[s1.id], topic, now);
  }

  /** Rescheduling one topic never touches another topic's reminders. */
  lemma OtherTopicsUntouched(cal: CalendarState, topic: string, other: string, day: int, now: int, failing: set<EventId>)
    requires Valid(cal)
    requires other != topic
    ensures var s := Reschedule(cal, topic, day, now, failing);
      forall id :: id in cal.events && cal.events[id].summary == Subject(other) ==>
        id in s.cal.events && s.cal.events[id] == cal.events[id]
  {
    var s := Reschedule(cal, topic, day, now, failing);
    forall id | id in cal.events && cal.events[id].summary == Subject(other)
      ensures id in s.cal.events && s.cal.events[id] == cal.events[id]
    {
      if Targets(cal.events[id], topic, now) {
        SubjectInjective(topic, other);
      }
    }
  }

  /** Some record after `k` and before `upto` has the topic of record `k`
      and is rescheduled at load, so its `delete_future_events` call removes
      the reminder record `k` got (`ScheduleOnLoad` states both outcomes). */
  predicate RescheduledLater(ledger: seq<TopicRecord>, today: int, k: nat, upto: nat)
    requires k < |ledger| && upto <= |ledger|
  {
    exists j :: k < j < upto && ledger[j].topic == ledger[k].topic && LoadActionFor(ledger[j].nextReview, today).ScheduleOn?
  }

  /** Extending the range by record `i` adds exactly record `i` as a
      possible later reschedule. */
  lemma RescheduledLaterStep(ledger: seq<TopicRecord>, today: int, k: nat, i: nat)
    requires k < |ledger| && i < |ledger| && k <= i
    ensures RescheduledLater(ledger, today, k, i + 1) <==>
      RescheduledLater(ledger, today, k, i) ||
      (k < i && ledger[i].topic == ledger[k].topic && LoadActionFor(ledger[i].nextReview, today).ScheduleOn?)
  {
    if RescheduledLater(ledger, today, k, i + 1) && !RescheduledLater(ledger, today, k, i) {
      var j :| k < j < i + 1 && ledger[j].topic == ledger[k].topic && LoadActionFor(ledger[j].nextReview, today).ScheduleOn?;
      assert j == i;
    }
    if RescheduledLater(ledger, today, k, i) {
      var j :| k < j < i && ledger[j].topic == ledger[k].topic && LoadActionFor(ledger[j].nextReview, today).ScheduleOn?;
      assert k < j < i + 1;
    }
    if k < i && ledger[i].topic == ledger[k].topic && LoadActionFor(ledger[i].nextReview, today).ScheduleOn? {
      assert k < i < i + 1;
    }
  }

  /** What the load-time pass does with one record (app.py:655-668). */
  datatype LoadAction = ClearEvent | ScheduleOn(day: int) | MarkExpired

  /** The decision reads only the next-review cell and today's date. */
  function LoadActionFor(next: DateText, today: int): (a: LoadAction)
    ensures a.ClearEvent? <==> !next.Day?
    ensures a.ScheduleOn? <==> next.Day? && next.n > today
    ensures a.MarkExpired? <==> next.Day? && next.n <= today
    ensures a.ScheduleOn? ==> a.day == next.n
  {
    match next
    case Day(n) => if n > today then ScheduleOn(n) else MarkExpired
    case _ => ClearEvent
  }

  /** The calendar pass of `_on_loaded`: records dated in the future get a
      fresh reminder (after their old ones are deleted); every other record
      loses its event id, and those dated today or earlier are marked expired.
      `expired[k]` is the in-memory `_expired` mark of record `k`. */
  method ScheduleOnLoad(ledger: seq<TopicRecord>, cal: CalendarState, today: int, now: int, failing: set<EventId>)
    returns (out: seq<TopicRecord>, expired: seq<bool>, cal': CalendarState)
    requires Valid(cal)
    ensures Valid(cal')
    ensures |out| == |ledger| && |expired| == |ledger|
    ensures forall k :: 0 <= k < |ledger| ==> out[k] == ledger[k].(eventId := out[k].eventId)
    ensures forall k :: 0 <= k < |ledger| ==>
      (out[k].eventId.Some? <==> LoadActionFor(ledger[k].nextReview, today).ScheduleOn?)
    ensures forall k :: 0 <= k < |ledger| ==>
      (expired[k] <==> LoadActionFor(ledger[k].nextReview, today).MarkExpired?)
    ensures forall k :: 0 <= k < |ledger| && out[k].eventId.Some? ==>
      cal.nextId <= out[k].eventId.value < cal'.nextId
    ensures forall id :: id in cal'.events && id !in cal.events ==>
      exists k :: 0 <= k < |ledger| && out[k].eventId == Some(id) && LoadActionFor(ledger[k].nextReview, today).ScheduleOn? &&
        cal'.events[id] == Event(Subject(ledger[k].topic), EventEnd(ledger[k].nextReview.n))
    ensures forall id :: id in cal'.events && id in cal.events ==> cal'.events[id] == cal.events[id]
    ensures forall j, k :: 0 <= j < k < |ledger| && out[j].eventId.Some? && out[k].eventId.Some? ==>
      out[j].eventId.value < out[k].eventId.value
    ensures forall k :: 0 <= k < |ledger| && out[k].eventId.Some? && ledger[k].nextReview.Day? &&
                        !RescheduledLater(ledger, today, k, |ledger|) ==>
      out[k].eventId.value in cal'.events &&
      cal'.events[out[k].eventId.value] == Event(Subject(ledger[k].topic), EventEnd(ledger[k].nextReview.n))
    ensures forall k :: 0 <= k < |ledger| && out[k].eventId.Some? && ledger[k].nextReview.Day? &&
                        RescheduledLater(ledger, today, k, |ledger|) &&
                        out[k].eventId.value !in failing && EventEnd(ledger[k].nextReview.n) > now ==>
      out[k].eventId.value !in cal'.events
    ensures forall id :: id in cal.events && !Targeted(ledger, today, now, |ledger|, cal.events[id]) ==>
      id in cal'.events && cal'.events[id] == cal.events[id]
    ensures forall id :: id in cal.events && id !in failing && Targeted(ledger, today, now, |ledger|, cal.events[id]) ==>
      id !in cal'.events
    ensures forall id :: id in cal.events && id in failing ==> id in cal'.events && cal'.events[id] == cal.events[id]
  {
    out := [];
    expired := [];
    cal' := cal;
    var i := 0;
    while i < |ledger|
      invariant 0 <= i <= |ledger|
      invariant LoadState(ledger, cal, today, now, failing, i, out, expired, cal')
    {
      var rec, mark, cal2 := LoadRecord(ledger, cal, today, now, failing, i, out, expired, cal');
      out, expired, cal' := out + [rec], expired + [mark], cal2;
      i := i + 1;
    }
    LoadDone(ledger, cal, today, now, failing, out, expired, cal');
  }

  /** The loop invariants at the end of the ledger give the contract of
      `ScheduleOnLoad`. */
  lemma LoadDone(ledger: seq<TopicRecord>, cal: CalendarState, today: int, now: int, failing: set<EventId>,
                 out: seq<TopicRecord>, expired: seq<bool>, cal': CalendarState)
    requires LoadState(ledger, cal, today, now, failing, |ledger|, out, expired, cal')
    ensures Valid(cal')
    ensures |out| == |ledger| && |expired| == |ledger|
    ensures forall k :: 0 <= k < |ledger| ==> out[k] == ledger[k].(eventId := out[k].eventId)
    ensures forall k :: 0 <= k < |ledger| ==>
      (out[k].eventId.Some? <==> LoadActionFor(ledger[k].nextReview, today).ScheduleOn?)
    ensures forall k :: 0 <= k < |ledger| ==>
      (expired[k] <==> LoadActionFor(ledger[k].nextReview, today).MarkExpired?)
    ensures forall k :: 0 <= k < |ledger| && out[k].eventId.Some? ==>
      cal.nextId <= out[k].eventId.value < cal'.nextId
    ensures forall id :: id in cal'.events && id !in cal.events ==>
      exists k :: 0 <= k < |ledger| && out[k].eventId == Some(id) && LoadActionFor(ledger[k].nextReview, today).ScheduleOn? &&
        cal'.events[id] == Event(Subject(ledger[k].topic), EventEnd(ledger[k].nextReview.n))
    ensures forall id :: id in cal'.events && id in cal.events ==> cal'.events[id] == cal.events[id]
    ensures forall j, k :: 0 <= j < k < |ledger| && out[j].eventId.Some? && out[k].eventId.Some? ==>
      out[j].eventId.value < out[k].eventId.value
    ensures forall k :: 0 <= k < |ledger| && out[k].eventId.Some? && ledger[k].nextReview.Day? &&
                        !RescheduledLater(ledger, today, k, |ledger|) ==>
      out[k].eventId.value in cal'.events &&
      cal'.events[out[k].eventId.value] == Event(Subject(ledger[k].topic), EventEnd(ledger[k].nextReview.n))
    ensures forall k :: 0 <= k < |ledger| && out[k].eventId.Some? && ledger[k].nextReview.Day? &&
                        RescheduledLater(ledger, today, k, |ledger|) &&
                        out[k].eventId.value !in failing && EventEnd(ledger[k].nextReview.n) > now ==>
      out[k].eventId.value !in cal'.events
    ensures forall id :: id in cal.events && !Targeted(ledger, today, now, |ledger|, cal.events[id]) ==>
      id in cal'.events && cal'.events[id] == cal.events[id]
    ensures forall id :: id in cal.events && id !in failing && Targeted(ledger, today, now, |ledger|, cal.events[id]) ==>
      id !in cal'.events
    ensures forall id :: id in cal.events && id in failing ==> id in cal'.events && cal'.events[id] == cal.events[id]
  {
  }

  /** One step of the load pass: record `i` loses its event id, is marked
      expired, or gets a fresh reminder, as its next-review date decides. */
  method LoadRecord(ledger: seq<TopicRecord>, cal: CalendarState, today: int, now: int, failing: set<EventId>,
                    i: nat, out: seq<TopicRecord>, expired: seq<bool>, cal': CalendarState)
    returns (rec: TopicRecord, mark: bool, cal2: CalendarState)
    requires i < |ledger| && LoadState(ledger, cal, today, now, failing, i, out, expired, cal')
    ensures rec == ledger[i].(eventId := rec.eventId)
    ensures rec.eventId.Some? <==> LoadActionFor(ledger[i].nextReview, today).ScheduleOn?
    ensures mark <==> LoadActionFor(ledger[i].nextReview, today).MarkExpired?
    ensures LoadState(ledger, cal, today, now, failing, i + 1, out + [rec], expired + [mark], cal2)
  {
    var r := ledger[i];
    match LoadActionFor(r.nextReview, today) {
    case ClearEvent =>
      LoadStateQuiet(ledger, cal, today, now, failing, i, out, expired, cal');
      rec, mark, cal2 := r.(eventId := None), false, cal';
    case ScheduleOn(day) =>
      var s := Reschedule(cal', r.topic, day, now, failing);
      LoadStateSchedule(ledger, cal, today, now, failing, i, out, expired, cal');
      rec, mark, cal2 := r.(eventId := Some(s.id)), false, s.cal;
    case MarkExpired =>
      LoadStateQuiet(ledger, cal, today, now, failing, i, out, expired, cal');
      rec, mark, cal2 := r.(eventId := None), true, cal';
    }
  }

  /** `e` is, at `now`, a pending reminder of the topic of one of the first
      `i` records that the load pass reschedules: one that pass tries to
      delete (app.py:662). */
  predicate Targeted(ledger: seq<TopicRecord>, today: int, now: int, i: nat, e: Event)
    requires i <= |ledger|
  {
    exists k :: 0 <= k < i && LoadActionFor(ledger[k].nextReview, today).ScheduleOn? && Targets(e, ledger[k].topic, now)
  }

  /** What the first `i` records did to the events that existed before the
      pass: the untargeted ones are still there, and the targeted ones are
      gone unless their delete failed; a failed delete leaves its event. */
  ghost predicate OldEventsFate(ledger: seq<TopicRecord>, cal: CalendarState, today: int, now: int, failing: set<EventId>,
                                i: nat, cal': CalendarState)
  {
    && i <= |ledger|
    && (forall id :: id in cal.events && !Targeted(ledger, today, now, i, cal.events[id]) ==> id in cal'.events)
    && (forall id :: id in cal.events && id !in failing && Targeted(ledger, today, now, i, cal.events[id]) ==>
         id !in cal'.events)
    && (forall id :: id in cal.events && id in failing ==> id in cal'.events)
  }

  /** A record that is not rescheduled targets nothing and changes nothing. */
  lemma FateStepQuiet(ledger: seq<TopicRecord>, cal: CalendarState, today: int, now: int, failing: set<EventId>,
                      i: nat, cal': CalendarState)
    requires i < |ledger| && OldEventsFate(ledger, cal, today, now, failing, i, cal')
    requires !LoadActionFor(ledger[i].nextReview, today).ScheduleOn?
    ensures OldEventsFate(ledger, cal, today, now, failing, i + 1, cal')
  {
    forall e: Event
      ensures Targeted(ledger, today, now, i + 1, e) ==> Targeted(ledger, today, now, i, e)
    {
      if Targeted(ledger, today, now, i + 1, e) {
        var k :| 0 <= k < i + 1 && LoadActionFor(ledger[k].nextReview, today).ScheduleOn? && Targets(e, ledger[k].topic, now);
        assert k < i;
      }
    }
  }

  /** Rescheduling record `i` deletes the old events its topic targets,
      except failed deletes, and keeps every other old event. */
  lemma FateStepSchedule(ledger: seq<TopicRecord>, cal: CalendarState, today: int, now: int, failing: set<EventId>,
                         i: nat, cal': CalendarState)
    requires i < |ledger| && OldEventsFate(ledger, cal, today, now, failing, i, cal')
    requires Valid(cal) && Valid(cal') && cal.nextId <= cal'.nextId && OldEventsKept(cal, cal')
    requires LoadActionFor(ledger[i].nextReview, today).ScheduleOn?
    ensures var s := Reschedule(cal', ledger[i].topic, ledger[i].nextReview.n, now, failing);
      OldEventsFate(ledger, cal, today, now, failing, i + 1, s.cal)
  {
    var t := ledger[i].topic;
    var s := Reschedule(cal', t, ledger[i].nextReview.n, now, failing);
    forall id | id in cal.events && !Targeted(ledger, today, now, i + 1, cal.events[id])
      ensures id in s.cal.events
    {
      assert id in cal'.events && cal'.events[id] == cal.events[id];
    }
    forall id | id in cal.events && id !in failing && Targeted(ledger, today, now, i + 1, cal.events[id])
      ensures id !in s.cal.events
    {
      var e := cal.events[id];
      assert id != s.id;
      var k :| 0 <= k < i + 1 && LoadActionFor(ledger[k].nextReview, today).ScheduleOn? && Targets(e, ledger[k].topic, now);
      if k < i {
        assert Targeted(ledger, today, now, i, e);
        assert id !in cal'.events;
      } else {
        assert id in s.cal.events ==> id in FutureReminders(s.cal, t, now);
      }
    }
  }

  /** A reminder created for a handled record is gone once a later handled
      record of its topic was rescheduled, unless that delete failed or the
      reminder had already ended. */
  ghost predicate SupersededGone(ledger: seq<TopicRecord>, today: int, now: int, failing: set<EventId>,
                                 out: seq<TopicRecord>, cal': CalendarState)
  {
    && |out| <= |ledger|
    && forall k :: 0 <= k < |out| && out[k].eventId.Some? && ledger[k].nextReview.Day? &&
                   RescheduledLater(ledger, today, k, |out|) &&
                   out[k].eventId.value !in failing && EventEnd(ledger[k].nextReview.n) > now ==>
         out[k].eventId.value !in cal'.events
  }

  /** A record that is not rescheduled deletes nothing and supersedes
      nothing. */
  lemma SupersededStepQuiet(ledger: seq<TopicRecord>, today: int, now: int, failing: set<EventId>,
                            i: nat, out: seq<TopicRecord>, cal': CalendarState, rec: TopicRecord)
    requires i < |ledger| && |out| == i && SupersededGone(ledger, today, now, failing, out, cal')
    requires !LoadActionFor(ledger[i].nextReview, today).ScheduleOn?
    ensures SupersededGone(ledger, today, now, failing, out + [rec], cal')
  {
    var out2 := out + [rec];
    forall k | 0 <= k < i
      ensures out2[k] == out[k]
      ensures RescheduledLater(ledger, today, k, i + 1) == RescheduledLater(ledger, today, k, i)
    {
      RescheduledLaterStep(ledger, today, k, i);
    }
    RescheduledLaterStep(ledger, today, i, i);
  }

  /** Rescheduling record `i` deletes the pending reminder an earlier record
      of its topic got in this pass, unless the delete fails. */
  lemma SupersededStepSchedule(ledger: seq<TopicRecord>, cal: CalendarState, today: int, now: int, failing: set<EventId>,
                               i: nat, out: seq<TopicRecord>, cal': CalendarState)
    requires i < |ledger| && |out| == i
    requires SupersededGone(ledger, today, now, failing, out, cal') && CalendarLoaded(ledger, cal, today, i, out, cal')
    requires LoadActionFor(ledger[i].nextReview, today).ScheduleOn?
    ensures var s := Reschedule(cal', ledger[i].topic, ledger[i].nextReview.n, now, failing);
      SupersededGone(ledger, today, now, failing, out + [ledger[i].(eventId := Some(s.id))], s.cal)
  {
    var t := ledger[i].topic;
    var s := Reschedule(cal', t, ledger[i].nextReview.n, now, failing);
    var out2 := out + [ledger[i].(eventId := Some(s.id))];
    forall k | 0 <= k < i && out[k].eventId.Some? && ledger[k].nextReview.Day? &&
               RescheduledLater(ledger, today, k, i + 1) &&
               out[k].eventId.value !in failing && EventEnd(ledger[k].nextReview.n) > now
      ensures out2[k] == out[k]
      ensures out[k].eventId.value !in s.cal.events
    {
      var id := out[k].eventId.value;
      assert id < cal'.nextId == s.id;
      RescheduledLaterStep(ledger, today, k, i);
      if !RescheduledLater(ledger, today, k, i) {
        assert id in cal'.events && Targets(cal'.events[id], t, now);
        assert id in s.cal.events ==> id in FutureReminders(s.cal, t, now);
      }
    }
    RescheduledLaterStep(ledger, today, i, i);
  }

  /** Everything the load pass keeps true after the first `i` records. */
  ghost predicate LoadState(ledger: seq<TopicRecord>, cal: CalendarState, today: int, now: int, failing: set<EventId>,
                            i: nat, out: seq<TopicRecord>, expired: seq<bool>, cal': CalendarState)
  {
    && LoadedUpTo(ledger, cal, today, i, out, expired, cal')
    && OldEventsFate(ledger, cal, today, now, failing, i, cal')
    && SupersededGone(ledger, today, now, failing, out, cal')
  }

  /** One record that gets no reminder keeps `LoadState`. */
  lemma LoadStateQuiet(ledger: seq<TopicRecord>, cal: CalendarState, today: int, now: int, failing: set<EventId>,
                       i: nat, out: seq<TopicRecord>, expired: seq<bool>, cal': CalendarState)
    requires i < |ledger| && LoadState(ledger, cal, today, now, failing, i, out, expired, cal')
    requires !LoadActionFor(ledger[i].nextReview, today).ScheduleOn?
    ensures LoadState(ledger, cal, today, now, failing, i + 1, out + [ledger[i].(eventId := None)],
                      expired + [LoadActionFor(ledger[i].nextReview, today).MarkExpired?], cal')
  {
    LoadStepQuiet(ledger, cal, today, i, out, expired, cal');
    FateStepQuiet(ledger, cal, today, now, failing, i, cal');
    SupersededStepQuiet(ledger, today, now, failing, i, out, cal', ledger[i].(eventId := None));
  }

  /** One record that gets a reminder keeps `LoadState`. */
  lemma LoadStateSchedule(ledger: seq<TopicRecord>, cal: CalendarState, today: int, now: int, failing: set<EventId>,
                          i: nat, out: seq<TopicRecord>, expired: seq<bool>, cal': CalendarState)
    requires i < |ledger| && LoadState(ledger, cal, today, now, failing, i, out, expired, cal')
    requires LoadActionFor(ledger[i].nextReview, today).ScheduleOn?
    ensures var s := Reschedule(cal', ledger[i].topic, ledger[i].nextReview.n, now, failing);
      LoadState(ledger, cal, today, now, failing, i + 1, out + [ledger[i].(eventId := Some(s.id))], expired + [false], s.cal)
  {
    LoadStepSchedule(ledger, cal, today, now, failing, i, out, expired, cal');
    SupersededStepSchedule(ledger, cal, today, now, failing, i, out, cal');
    FateStepSchedule(ledger, cal, today, now, failing, i, cal');
  }

  /** The state of the load pass after the first `i` records. */
  ghost predicate LoadedUpTo(ledger: seq<TopicRecord>, cal: CalendarState, today: int, i: nat,
                             out: seq<TopicRecord>, expired: seq<bool>, cal': CalendarState)
  {
    RecordsLoaded(ledger, today, i, out, expired) && CalendarLoaded(ledger, cal, today, i, out, cal')
  }

  /** The records handled so far differ from the ledger in their event id
      only, and carry the marks their load action asks for. */
  ghost predicate RecordsLoaded(ledger: seq<TopicRecord>, today: int, i: nat, out: seq<TopicRecord>, expired: seq<bool>)
  {
    && i <= |ledger| && |out| == i && |expired| == i
    && (forall k :: 0 <= k < i ==> out[k] == ledger[k].(eventId := out[k].eventId))
    && (forall k :: 0 <= k < i ==>
         (out[k].eventId.Some? <==> LoadActionFor(ledger[k].nextReview, today).ScheduleOn?))
    && (forall k :: 0 <= k < i ==>
         (expired[k] <==> LoadActionFor(ledger[k].nextReview, today).MarkExpired?))
  }

  /** The calendar so far: new events belong to scheduled records, old ones
      are unchanged, and a scheduled record not followed by one of its topic
      points at its own reminder. */
  ghost predicate CalendarLoaded(ledger: seq<TopicRecord>, cal: CalendarState, today: int, i: nat,
                                 out: seq<TopicRecord>, cal': CalendarState)
  {
    && i <= |ledger| && |out| == i
    && Valid(cal) && Valid(cal') && cal.nextId <= cal'.nextId
    && IdsIssued(cal, out, cal')
    && NewEventsScheduled(ledger, cal, today, out, cal')
    && OldEventsKept(cal, cal')
    && RemindersPointed(ledger, today, out, cal')
  }

  /** Every event id recorded so far was handed out during the pass, in
      increasing order. */
  ghost predicate IdsIssued(cal: CalendarState, out: seq<TopicRecord>, cal': CalendarState)
  {
    && (forall k :: 0 <= k < |out| && out[k].eventId.Some? ==> cal.nextId <= out[k].eventId.value < cal'.nextId)
    && (forall j, k :: 0 <= j < k < |out| && out[j].eventId.Some? && out[k].eventId.Some? ==>
          out[j].eventId.value < out[k].eventId.value)
  }

  /** Every event the pass created is the reminder of a handled record that
      points at it, so each record accounts for at most one new event. */
  ghost predicate NewEventsScheduled(ledger: seq<TopicRecord>, cal: CalendarState, today: int, out: seq<TopicRecord>,
                                     cal': CalendarState)
    requires |out| <= |ledger|
  {
    forall id :: id in cal'.events && id !in cal.events ==>
      exists k :: 0 <= k < |out| && out[k].eventId == Some(id) && LoadActionFor(ledger[k].nextReview, today).ScheduleOn? &&
        cal'.events[id] == Event(Subject(ledger[k].topic), EventEnd(ledger[k].nextReview.n))
  }

  /** Events that existed before the pass and still exist are unchanged. */
  ghost predicate OldEventsKept(cal: CalendarState, cal': CalendarState)
  {
    forall id :: id in cal'.events && id in cal.events ==> cal'.events[id] == cal.events[id]
  }

  /** A handled record with an event id, dated, and not followed so far by a
      rescheduled record of its topic, points at its own reminder. */
  ghost predicate RemindersPointed(ledger: seq<TopicRecord>, today: int, out: seq<TopicRecord>, cal': CalendarState)
    requires |out| <= |ledger|
  {
    forall k :: 0 <= k < |out| && out[k].eventId.Some? && ledger[k].nextReview.Day? &&
                !RescheduledLater(ledger, today, k, |out|) ==>
      out[k].eventId.value in cal'.events &&
      cal'.events[out[k].eventId.value] == Event(Subject(ledger[k].topic), EventEnd(ledger[k].nextReview.n))
  }

  /** Appending the handled record keeps `RecordsLoaded`. */
  lemma RecordsStep(ledger: seq<TopicRecord>, today: int, i: nat, out: seq<TopicRecord>, expired: seq<bool>,
                    rec: TopicRecord, mark: bool)
    requires i < |ledger| && RecordsLoaded(ledger, today, i, out, expired)
    requires rec == ledger[i].(eventId := rec.eventId)
    requires rec.eventId.Some? <==> LoadActionFor(ledger[i].nextReview, today).ScheduleOn?
    requires mark <==> LoadActionFor(ledger[i].nextReview, today).MarkExpired?
    ensures RecordsLoaded(ledger, today, i + 1, out + [rec], expired + [mark])
  {
  }

  /** A record that gets no reminder keeps `LoadedUpTo`. */
  lemma LoadStepQuiet(ledger: seq<TopicRecord>, cal: CalendarState, today: int, i: nat,
                      out: seq<TopicRecord>, expired: seq<bool>, cal': CalendarState)
    requires i < |ledger| && LoadedUpTo(ledger, cal, today, i, out, expired, cal')
    requires !LoadActionFor(ledger[i].nextReview, today).ScheduleOn?
    ensures LoadedUpTo(ledger, cal, today, i + 1, out + [ledger[i].(eventId := None)],
                       expired + [LoadActionFor(ledger[i].nextReview, today).MarkExpired?], cal')
  {
    RecordsStep(ledger, today, i, out, expired, ledger[i].(eventId := None), LoadActionFor(ledger[i].nextReview, today).MarkExpired?);
    CalendarQuietStep(ledger, cal, today, i, out, cal', ledger[i].(eventId := None));
  }

  /** A record without a reminder leaves the calendar as it is and keeps
      `CalendarLoaded`. */
  lemma CalendarQuietStep(ledger: seq<TopicRecord>, cal: CalendarState, today: int, i: nat,
                          out: seq<TopicRecord>, cal': CalendarState, rec: TopicRecord)
    requires i < |ledger| && CalendarLoaded(ledger, cal, today, i, out, cal')
    requires !LoadActionFor(ledger[i].nextReview, today).ScheduleOn?
    requires rec.eventId.None?
    ensures CalendarLoaded(ledger, cal, today, i + 1, out + [rec], cal')
  {
    var out2 := out + [rec];
    assert forall k :: 0 <= k < i ==> out2[k] == out[k];
    assert IdsIssued(cal, out2, cal');
    forall id | id in cal'.events && id !in cal.events
      ensures exists k :: 0 <= k < |out2| && out2[k].eventId == Some(id) && LoadActionFor(ledger[k].nextReview, today).ScheduleOn? &&
                          cal'.events[id] == Event(Subject(ledger[k].topic), EventEnd(ledger[k].nextReview.n))
    {
      var k :| 0 <= k < |out| && out[k].eventId == Some(id) && LoadActionFor(ledger[k].nextReview, today).ScheduleOn? &&
        cal'.events[id] == Event(Subject(ledger[k].topic), EventEnd(ledger[k].nextReview.n));
      assert out2[k] == out[k];
    }
    forall k | 0 <= k < i
      ensures RescheduledLater(ledger, today, k, i + 1) == RescheduledLater(ledger, today, k, i)
    {
      RescheduledLaterStep(ledger, today, k, i);
    }
    assert RemindersPointed(ledger, today, out2, cal');
  }

  /** A record that gets a reminder keeps `LoadedUpTo`: the new event is its
      own, and the delete spares every other topic's reminders. */
  lemma LoadStepSchedule(ledger: seq<TopicRecord>, cal: CalendarState, today: int, now: int, failing: set<EventId>,
                         i: nat, out: seq<TopicRecord>, expired: seq<bool>, cal': CalendarState)
    requires i < |ledger| && LoadedUpTo(ledger, cal, today, i, out, expired, cal')
    requires LoadActionFor(ledger[i].nextReview, today).ScheduleOn?
    ensures var s := Reschedule(cal', ledger[i].topic, ledger[i].nextReview.n, now, failing);
      LoadedUpTo(ledger, cal, today, i + 1, out + [ledger[i].(eventId := Some(s.id))], expired + [false], s.cal)
  {
    var r := ledger[i];
    var s := Reschedule(cal', r.topic, r.nextReview.n, now, failing);
    RecordsStep(ledger, today, i, out, expired, r.(eventId := Some(s.id)), false);
    CalendarScheduleStep(ledger, cal, today, now, failing, i, out, cal');
  }

  /** The calendar half of `LoadStepSchedule`. */
  lemma CalendarScheduleStep(ledger: seq<TopicRecord>, cal: CalendarState, today: int, now: int, failing: set<EventId>,
                             i: nat, out: seq<TopicRecord>, cal': CalendarState)
    requires i < |ledger| && CalendarLoaded(ledger, cal, today, i, out, cal')
    requires LoadActionFor(ledger[i].nextReview, today).ScheduleOn?
    ensures var s := Reschedule(cal', ledger[i].topic, ledger[i].nextReview.n, now, failing);
      CalendarLoaded(ledger, cal, today, i + 1, out + [ledger[i].(eventId := Some(s.id))], s.cal)
  {
    var r := ledger[i];
    var s := Reschedule(cal', r.topic, r.nextReview.n, now, failing);
    var out2 := out + [r.(eventId := Some(s.id))];
    IdsStep(cal, out, cal', s, r.(eventId := Some(s.id)));
    NewEventsBelongToRecords(ledger, cal, today, now, failing, i, out, cal');
    OldEventsStep(cal, cal', s, r.topic, r.nextReview.n, now, failing);
    RemindersSurvive(ledger, today, now, failing, i, out, cal');
    assert LoadActionFor(ledger[i].nextReview, today).ScheduleOn?;
  }

  /** Recording a freshly issued id keeps `IdsIssued`. */
  lemma IdsStep(cal: CalendarState, out: seq<TopicRecord>, cal': CalendarState, s: Scheduled, rec: TopicRecord)
    requires IdsIssued(cal, out, cal') && cal.nextId <= cal'.nextId
    requires s.id == cal'.nextId && s.cal.nextId == cal'.nextId + 1
    requires rec.eventId == Some(s.id)
    ensures IdsIssued(cal, out + [rec], s.cal)
  {
    var out2 := out + [rec];
    assert forall k :: 0 <= k < |out| ==> out2[k] == out[k];
    assert forall j :: 0 <= j < |out| && out2[j].eventId.Some? ==> out2[j].eventId.value < out2[|out|].eventId.value;
  }

  /** Rescheduling changes no event that existed before the pass. */
  lemma OldEventsStep(cal: CalendarState, cal': CalendarState, s: Scheduled, topic: string, day: int, now: int,
                      failing: set<EventId>)
    requires Valid(cal) && Valid(cal') && cal.nextId <= cal'.nextId && OldEventsKept(cal, cal')
    requires s == Reschedule(cal', topic, day, now, failing)
    ensures OldEventsKept(cal, s.cal)
  {
    assert s.id !in cal.events;
  }

  /** The event the schedule step creates belongs to record `i`; the events
      it keeps were there before. */
  lemma NewEventsBelongToRecords(ledger: seq<TopicRecord>, cal: CalendarState, today: int, now: int, failing: set<EventId>,
                                 i: nat, out: seq<TopicRecord>, cal': CalendarState)
    requires i < |ledger| && |out| == i && Valid(cal')
    requires LoadActionFor(ledger[i].nextReview, today).ScheduleOn?
    requires NewEventsScheduled(ledger, cal, today, out, cal')
    ensures var s := Reschedule(cal', ledger[i].topic, ledger[i].nextReview.n, now, failing);
      NewEventsScheduled(ledger, cal, today, out + [ledger[i].(eventId := Some(s.id))], s.cal)
  {
    var s := Reschedule(cal', ledger[i].topic, ledger[i].nextReview.n, now, failing);
    var out2 := out + [ledger[i].(eventId := Some(s.id))];
    forall id | id in s.cal.events && id !in cal.events
      ensures exists k :: 0 <= k < |out2| && out2[k].eventId == Some(id) && LoadActionFor(ledger[k].nextReview, today).ScheduleOn? &&
                          s.cal.events[id] == Event(Subject(ledger[k].topic), EventEnd(ledger[k].nextReview.n))
    {
      if id != s.id {
        assert id in cal'.events && s.cal.events[id] == cal'.events[id];
        var k :| 0 <= k < i && out[k].eventId == Some(id) && LoadActionFor(ledger[k].nextReview, today).ScheduleOn? &&
          cal'.events[id] == Event(Subject(ledger[k].topic), EventEnd(ledger[k].nextReview.n));
        assert out2[k] == out[k];
      } else {
        assert out2[i].eventId == Some(id);
        assert s.cal.events[id] == Event(Subject(ledger[i].topic), EventEnd(ledger[i].nextReview.n));
      }
    }
  }

  /** Rescheduling record `i` spares the reminders of earlier records whose
      topic differs, and record `i` points at its new reminder. */
  lemma RemindersSurvive(ledger: seq<TopicRecord>, today: int, now: int, failing: set<EventId>,
                         i: nat, out: seq<TopicRecord>, cal': CalendarState)
    requires i < |ledger| && |out| == i && Valid(cal')
    requires LoadActionFor(ledger[i].nextReview, today).ScheduleOn?
    requires RemindersPointed(ledger, today, out, cal')
    ensures var s := Reschedule(cal', ledger[i].topic, ledger[i].nextReview.n, now, failing);
      RemindersPointed(ledger, today, out + [ledger[i].(eventId := Some(s.id))], s.cal)
  {
    var r := ledger[i];
    var s := Reschedule(cal', r.topic, r.nextReview.n, now, failing);
    var out2 := out + [r.(eventId := Some(s.id))];
    forall k | 0 <= k < i && out[k].eventId.Some? && ledger[k].nextReview.Day? && !RescheduledLater(ledger, today, k, i + 1)
      ensures out2[k] == out[k]
      ensures out[k].eventId.value in s.cal.events
      ensures s.cal.events[out[k].eventId.value] == Event(Subject(ledger[k].topic), EventEnd(ledger[k].nextReview.n))
    {
      RescheduledLaterStep(ledger, today, k, i);
      if cal'.events[out[k].eventId.value].summary == Subject(r.topic) {
        SubjectInjective(ledger[k].topic, r.topic);
      }
    }
    RescheduledLaterStep(ledger, today, i, i);
    assert RemindersPointed(ledger, today, out2, s.cal);
  }

  /** The "Next Review" cell of the table (app.py:846-864). */
  datatype Cell = BlankCell | ExpiredCell | DatePicker(day: int)

  function NextReviewCell(r: TopicRecord, today: int): (c: Cell)
    ensures c.BlankCell? <==> r.lastReview.IsBlank() || r.nextReview.IsEmpty()
    ensures c.ExpiredCell? <==> !r.lastReview.IsBlank() && r.nextReview.Day? && r.nextReview.n <= today
    ensures c.DatePicker? ==> c.day > today || (c.day == today && r.nextReview.Malformed?)
    ensures c.DatePicker? && r.nextReview.Day? ==> c.day == r.nextReview.n
    ensures c.DatePicker? && r.nextReview.Malformed? ==> c.day == today
  {
    if r.lastReview.IsBlank() || r.nextReview.IsEmpty() then BlankCell
    else if r.nextReview.Day? && r.nextReview.n <= today then ExpiredCell
    else DatePicker(if r.nextReview.Day? then r.nextReview.n else today)
  }

  /** A topic never reviewed is never shown as expired, whatever its date. */
  lemma NeverReviewedNeverShownExpired(r: TopicRecord, today: int)
    requires r.lastReview.IsBlank()
    ensures NextReviewCell(r, today) == BlankCell
  {
  }

  /** The load-time pass does not consult the last review: a never-reviewed
      record dated today or earlier is marked expired and gets no reminder,
      although the table shows its cell blank rather than "Expired". */
  lemma LoadExpiryIgnoresLastReview(r: TopicRecord, today: int)
    requires r.nextReview.Day? && r.nextReview.n <= today
    ensures LoadActionFor(r.nextReview, today) == MarkExpired
    ensures r.lastReview.IsBlank() ==> NextReviewCell(r, today) == BlankCell
    ensures !r.lastReview.IsBlank() ==> NextReviewCell(r, today) == ExpiredCell
  {
  }

  /** A reviewed record whose date passed yesterday is shown as expired and
      gets no new reminder at load. */
  lemma ExpiryScenario(r: TopicRecord, today: int)
    requires r.lastReview.Day?
    requires r.nextReview == Day(today - 1)
    ensures NextReviewCell(r, today) == ExpiredCell
    ensures LoadActionFor(r.nextReview, today) == MarkExpired
  {
  }

  /** After a review, the table offers the new date for editing and the next
      load schedules a reminder for it while that date is still ahead. */
  lemma ReviewedRecordIsScheduled(r: TopicRecord, reviewDay: int, next: int, today: int)
    requires r.lastReview == Day(reviewDay) && r.nextReview == Day(next)
    requires today < next
    ensures NextReviewCell(r, today) == DatePicker(next)
    ensures LoadActionFor(r.nextReview, today) == ScheduleOn(next)
  {
  }
}

=== FILE: ledger_ops.dfy ===
/**
  The small edits and views of the in-memory ledger: adding a topic,
  attaching and deleting files, the search filter, file navigation, the
  sort-order toggle and the column projection applied before a write.
 */
module LedgerOps {
  import opened Types
  import opened Seqs
  import opened Text
  import opened Schedule
  import opened Calendar

  /** `add_topic` (app.py:1127-1147): a blank name adds nothing; otherwise a
      record for the stripped name is appended, never reviewed and dated
      today. `folderId` is the id the remote store gave the topic folder. */
  function AddTopic(ledger: seq<TopicRecord>, text: string, today: int, folderId: string): (l: seq<TopicRecord>)
    ensures AllSpace(text) ==> l == ledger
    ensures !AllSpace(text) ==>
      && |l| == |ledger| + 1
      && l[..|ledger|] == ledger
      && l[|ledger|] == TopicRecord(Strip(text), [], Empty, Day(today), None, folderId)
  {
    StripEmptyIff(text);
    var name := Strip(text);
    if name == [] then ledger
    else ledger + [TopicRecord(name, [], Empty, Day(today), None, folderId)]
  }

  /** `add_topic` as written: the record is appended to `full_data` and then
      to `data` (app.py:1144-1145). After a search whose query strips to
      nothing, `data` is the very list `full_data` (app.py:816-818), so
      `viewIsLedger` holds and the ledger receives the record twice. After
      the load (`data` is a copy, app.py:630) or a non-blank search it does
      not. */
  function AddTopicAsWritten(ledger: seq<TopicRecord>, viewIsLedger: bool, text: string, today: int, folderId: string)
    : (l: seq<TopicRecord>)
    ensures AllSpace(text) ==> l == ledger
    ensures !AllSpace(text) ==>
      && |l| == |ledger| + (if viewIsLedger then 2 else 1)
      && l[..|ledger|] == ledger
      && forall k :: |ledger| <= k < |l| ==> l[k] == TopicRecord(Strip(text), [], Empty, Day(today), None, folderId)
  {
    var once := AddTopic(ledger, text, today, folderId);
    if AllSpace(text) || !viewIsLedger then once else once + [once[|ledger|]]
  }

  /** Search for anything, clear the search box (the shown list is now the
      ledger itself), then add a topic: the ledger gains two copies of the new
      record, so it is listed and later written twice. */
  lemma AliasedAddDuplicates(full: seq<TopicRecord>, text: string, today: int, folderId: string)
    requires !AllSpace(text)
    ensures var viewIsLedger := Search(full, "") == full;
      var l := AddTopicAsWritten(full, viewIsLedger, text, today, folderId);
      var rec := TopicRecord(Strip(text), [], Empty, Day(today), None, folderId);
      viewIsLedger && multiset(l)[rec] == multiset(full)[rec] + 2
  {
    assert AllSpace("");
    var l := AddTopicAsWritten(full, true, text, today, folderId);
    var rec := TopicRecord(Strip(text), [], Empty, Day(today), None, folderId);
    assert l[|full|] == rec && l[|full| + 1] == rec;
    assert l == full + [rec, rec];
  }

  /** The corrected add appends the record exactly once, whatever the view. */
  lemma AddTopicAddsOnce(ledger: seq<TopicRecord>, text: string, today: int, folderId: string)
    requires !AllSpace(text)
    ensures var rec := TopicRecord(Strip(text), [], Empty, Day(today), None, folderId);
      multiset(AddTopic(ledger, text, today, folderId))[rec] == multiset(ledger)[rec] + 1
  {
    var rec := TopicRecord(Strip(text), [], Empty, Day(today), None, folderId);
    var l := AddTopic(ledger, text, today, folderId);
    assert l == ledger + [rec];
  }

  /** The name of an added topic carries no white space at either end and is
      not empty. */
  lemma AddedTopicNameIsTrimmed(ledger: seq<TopicRecord>, text: string, today: int, folderId: string)
    requires !AllSpace(text)
    ensures var t := AddTopic(ledger, text, today, folderId)[|ledger|].topic;
      |t| > 0 && !IsSpace(t[0]) && !IsSpace(t[|t| - 1])
  {
    StripEmptyIff(text);
  }

  /** The position of the first record of `topic`, or -1. */
  function FirstWithTopic(rows: seq<TopicRecord>, topic: string): (j: int)
    ensures -1 <= j < |rows|
    ensures j >= 0 ==> rows[j].topic == topic
    ensures forall k :: 0 <= k < |rows| && (j < 0 || k < j) ==> rows[k].topic != topic
  {
    FirstKeyed(rows, RecordTopic, topic)
  }

  /** Replace the file list of record `i`, then copy that record over the
      first record with the same topic (the `e.update(ent)` loop of
      app.py:1043-1046 and app.py:1076-1079). */
  function SetFiles(ledger: seq<TopicRecord>, i: nat, files: seq<FileRef>): (l: seq<TopicRecord>)
    requires i < |ledger|
    ensures |l| == |ledger|
    ensures var j := FirstWithTopic(ledger, ledger[i].topic);
      && 0 <= j <= i
      && l[i] == ledger[i].(files := files)
      && l[j] == l[i]
      && forall k :: 0 <= k < |ledger| && k != i && k != j ==> l[k] == ledger[k]
  {
    var edited := ledger[i := ledger[i].(files := files)];
    assert forall k :: 0 <= k < |ledger| ==> edited[k].topic == ledger[k].topic;
    var j := FirstWithTopic(edited, ledger[i].topic);
    assert j == FirstWithTopic(ledger, ledger[i].topic) by {
      FirstWithTopicSameTopics(edited, ledger, ledger[i].topic);
    }
    edited[j := edited[i]]
  }

  /** The first-record search sees only topics. */
  lemma {:induction false} FirstWithTopicSameTopics(a: seq<TopicRecord>, b: seq<TopicRecord>, topic: string)
    requires |a| == |b|
    requires forall k :: 0 <= k < |a| ==> a[k].topic == b[k].topic
    ensures FirstWithTopic(a, topic) == FirstWithTopic(b, topic)
    decreases |a|
  {
    if |a| > 0 {
      FirstWithTopicSameTopics(a[1..], b[1..], topic);
    }
  }

  /** `_done_upload` (app.py:1034-1048): the uploaded file is appended to the
      topic's list. */
  function AttachFile(ledger: seq<TopicRecord>, i: nat, f: FileRef): (l: seq<TopicRecord>)
    requires i < |ledger|
    ensures |l| == |ledger|
    ensures l[i].files == ledger[i].files + [f]
    ensures l[i] == ledger[i].(files := l[i].files)
    ensures var j := FirstWithTopic(ledger, ledger[i].topic);
      && 0 <= j <= i
      && l[j] == l[i]
      && forall k :: 0 <= k < |ledger| && k != i && k != j ==> l[k] == ledger[k]
  {
    SetFiles(ledger, i, ledger[i].files + [f])
  }

  /** Accepts the entries whose id is not `id`. */
  function IdOtherThan(id: string): FileRef -> bool
  {
    (f: FileRef) => f.id != id
  }

  /** The entries of `files` whose id differs from `id`, in order
      (app.py:1073). */
  function WithoutId(files: seq<FileRef>, id: string): (r: seq<FileRef>)
    ensures forall f :: f in r <==> f in files && f.id != id
    ensures |r| <= |files|
  {
    Filter(files, IdOtherThan(id))
  }

  /** The comprehension keeps the order and the repeats of the entries it
      keeps. */
  lemma WithoutIdAppend(a: seq<FileRef>, b: seq<FileRef>, id: string)
    ensures WithoutId(a + b, id) == WithoutId(a, id) + WithoutId(b, id)
  {
    FilterAppend(a, b, IdOtherThan(id));
  }

  /** Removing an id that is present shortens the list; removing one that is
      absent changes nothing. */
  lemma WithoutIdShrinks(files: seq<FileRef>, k: nat)
    requires k < |files|
    ensures |WithoutId(files, files[k].id)| < |files|
  {
    FilterAllIff(files, IdOtherThan(files[k].id));
  }

  lemma WithoutAbsentId(files: seq<FileRef>, id: string)
    requires forall k :: 0 <= k < |files| ==> files[k].id != id
    ensures WithoutId(files, id) == files
  {
    FilterAllIff(files, IdOtherThan(id));
  }

  /** `on_deleted` of `open_settings` (app.py:1070-1079): after the remote
      delete of the `idx`-th file, every entry with that file's id leaves the
      topic's list; the other entries stay in order. */
  function DeleteFile(ledger: seq<TopicRecord>, i: nat, idx: nat): (l: seq<TopicRecord>)
    requires i < |ledger| && idx < |ledger[i].files|
    ensures |l| == |ledger|
    ensures l[i] == ledger[i].(files := l[i].files)
    ensures forall f :: f in l[i].files <==> f in ledger[i].files && f.id != ledger[i].files[idx].id
    ensures |l[i].files| < |ledger[i].files|
    ensures l[i].files == WithoutId(ledger[i].files, ledger[i].files[idx].id)
    ensures var j := FirstWithTopic(ledger, ledger[i].topic);
      && 0 <= j <= i
      && l[j] == l[i]
      && forall k :: 0 <= k < |ledger| && k != i && k != j ==> l[k] == ledger[k]
  {
    WithoutIdShrinks(ledger[i].files, idx);
    SetFiles(ledger, i, WithoutId(ledger[i].files, ledger[i].files[idx].id))
  }

  /** When topics are unique a file edit changes record `i` alone. */
  lemma FileEditTouchesOneRecord(ledger: seq<TopicRecord>, i: nat, files: seq<FileRef>)
    requires i < |ledger|
    requires forall a, b :: 0 <= a < b < |ledger| ==> ledger[a].topic != ledger[b].topic
    ensures SetFiles(ledger, i, files) == ledger[i := ledger[i].(files := files)]
  {
  }

  /** Accepts the records whose lower-cased topic contains `t`. */
  function TopicContains(t: string): TopicRecord -> bool
  {
    (x: TopicRecord) => Contains(Lower(x.topic), t)
  }

  /** The records whose lower-cased topic contains `t`, in order
      (app.py:819). */
  function Matching(rows: seq<TopicRecord>, t: string): (r: seq<TopicRecord>)
    ensures forall x :: x in r <==> x in rows && Contains(Lower(x.topic), t)
    ensures |r| <= |rows|
  {
    Filter(rows, TopicContains(t))
  }

  /** The filter keeps the ledger's order and its repeated rows. */
  lemma MatchingAppend(a: seq<TopicRecord>, b: seq<TopicRecord>, t: string)
    ensures Matching(a + b, t) == Matching(a, t) + Matching(b, t)
  {
    FilterAppend(a, b, TopicContains(t));
  }

  /** `on_search` (app.py:814-821): a query that strips to nothing shows the
      whole ledger; otherwise the records whose topic contains the stripped,
      lower-cased query, ignoring case. */
  function Search(full: seq<TopicRecord>, query: string): (shown: seq<TopicRecord>)
    ensures AllSpace(query) ==> shown == full
    ensures !AllSpace(query) ==>
      forall x :: x in shown <==> x in full && Contains(Lower(x.topic), Lower(Strip(query)))
    ensures |shown| <= |full|
  {
    StripEmptyIff(query);
    var t := Lower(Strip(query));
    if t == [] then full else Matching(full, t)
  }

  /** The shown list is the ledger filtered row by row: searching a ledger
      made of two parts shows the first part's matches, then the second's. */
  lemma SearchAppend(a: seq<TopicRecord>, b: seq<TopicRecord>, query: string)
    ensures Search(a + b, query) == Search(a, query) + Search(b, query)
  {
    StripEmptyIff(query);
    MatchingAppend(a, b, Lower(Strip(query)));
  }

  /** The empty string is in every topic, so filtering by it would keep every
      record too: the two branches of the search agree there. */
  lemma EmptyQueryKeepsAll(rows: seq<TopicRecord>)
    ensures Matching(rows, []) == rows
  {
    forall k | 0 <= k < |rows|
      ensures TopicContains([])(rows[k])
    {
      assert OccursAt(Lower(rows[k].topic), [], 0);
    }
    FilterAllIff(rows, TopicContains([]));
  }

  /** A non-zero multiple of `n` is at least `n` in size. */
  lemma MultipleAtLeast(c: int, n: int)
    requires n > 0 && c >= 1
    ensures c * n >= n
  {
  }

  /** `k` is the remainder of `a` by `n`: the position a counter `a` lands
      on among `n` files. */
  lemma {:induction false} RemainderUnique(a: int, n: int, q: int, k: int)
    requires n > 0 && 0 <= k < n && a == q * n + k
    ensures a % n == k
  {
    var q' := a / n;
    var k' := a % n;
    assert a == q' * n + k';
    assert (q - q') * n == k' - k by {
      assert q * n - q' * n == (q - q') * n;
    }
    if q > q' {
      MultipleAtLeast(q - q', n);
    } else if q < q' {
      MultipleAtLeast(q' - q, n);
    }
  }

  /** Counter `a` and position `k` differ by a whole number of rounds. */
  predicate SameRound(a: int, k: int, n: int)
    requires n > 0
  {
    (a - k) % n == 0
  }

  /** `_open_file_by_index` (app.py:758-765): the file shown for a
      navigation counter, wrapping around with Python's `%` (which, for a
      positive divisor, agrees with Dafny's), or none when the topic has no
      files. */
  function FileAt(files: seq<FileRef>, index: int): (r: Option<FileRef>)
    ensures r.None? <==> |files| == 0
    ensures r.Some? ==> exists k :: 0 <= k < |files| && r.value == files[k] && SameRound(index, k, |files|)
  {
    if |files| == 0 then None
    else
      var n := |files|;
      var k := index % n;
      assert index - k == (index / n) * n;
      RemainderUnique(index - k, n, index / n, 0);
      Some(files[k])
  }

  /** Stepping forward from the last file shows the first. */
  lemma NextAfterLastWraps(files: seq<FileRef>)
    requires |files| > 0
    ensures FileAt(files, |files|) == Some(files[0])
  {
    RemainderUnique(|files|, |files|, 1, 0);
  }

  /** Stepping back from the first file shows the last. */
  lemma PrevBeforeFirstWraps(files: seq<FileRef>)
    requires |files| > 0
    ensures FileAt(files, -1) == Some(files[|files| - 1])
  {
    RemainderUnique(-1, |files|, -1, |files| - 1);
  }

  /** A full round of steps comes back to the same file. */
  lemma FileAtPeriodic(files: seq<FileRef>, index: int)
    ensures FileAt(files, index + |files|) == FileAt(files, index)
  {
    if |files| > 0 {
      var n := |files|;
      assert index == (index / n) * n + index % n;
      RemainderUnique(index + n, n, index / n + 1, index % n);
    }
  }

  datatype SortOrder = Ascending | Descending

  /** The per-column orders after a header click, and the order applied. */
  datatype Sorting = Sorting(states: map<int, SortOrder>, applied: Option<SortOrder>)

  /** Columns the table sorts on: topic, last review, next review. */
  predicate Sortable(col: int)
  {
    col == 0 || col == 2 || col == 3
  }

  /** `handle_header_clicked` (app.py:869-878): other columns are ignored; a
      sortable column flips its remembered order, taken as ascending when
      none is remembered. */
  function HeaderClicked(states: map<int, SortOrder>, col: int): (s: Sorting)
    ensures !Sortable(col) ==> s == Sorting(states, None)
    ensures Sortable(col) ==>
      && s.applied.Some?
      && s.states == states[col := s.applied.value]
      && s.applied.value != (if col in states then states[col] else Ascending)
  {
    if !Sortable(col) then Sorting(states, None)
    else
      var prev := if col in states then states[col] else Ascending;
      var order := if prev == Ascending then Descending else Ascending;
      Sorting(states[col := order], Some(order))
  }

  /** The first click on a column sorts descending; the next one ascending. */
  lemma FirstClickDescending(states: map<int, SortOrder>, col: int)
    requires Sortable(col) && col !in states
    ensures HeaderClicked(states, col).applied == Some(Descending)
    ensures HeaderClicked(HeaderClicked(states, col).states, col).applied == Some(Ascending)
  {
  }

  /** Two clicks on a column give it back its remembered order and leave the
      other columns alone. */
  lemma TwoClicksRestore(states: map<int, SortOrder>, col: int, other: int)
    requires Sortable(col) && col in states && other != col
    ensures var s2 := HeaderClicked(HeaderClicked(states, col).states, col);
      s2.applied == Some(states[col]) && s2.states == states
      && (other in states ==> other in s2.states && s2.states[other] == states[other])
  {
  }

  /** The ledger columns (app.py:60-63) and the log columns (app.py:64). */
  const ReviewFields: seq<string> := ["topic", "files", "last_review", "next_review", "calendar_event_id", "drive_folder_id"]
  const LogFields: seq<string> := ["topic", "review_date", "difficulty", "comment"]

  /** The projection `_write_file` applies to each row (app.py:162): only the
      file's own columns survive, with their values. */
  function Project<V>(row: map<string, V>, fields: seq<string>): (p: map<string, V>)
    ensures forall k :: k in p <==> k in row && k in fields
    ensures forall k :: k in p ==> p[k] == row[k]
  {
    map k | k in row && k in fields :: row[k]
  }

  /** Projecting twice is projecting once. */
  lemma ProjectIdempotent<V>(row: map<string, V>, fields: seq<string>)
    ensures Project(Project(row, fields), fields) == Project(row, fields)
  {
  }

  /** The in-memory `_expired` mark never reaches the ledger file. */
  lemma ExpiredMarkNotWritten<V>(row: map<string, V>, mark: V)
    ensures Project(row["_expired" := mark], ReviewFields) == Project(row - {"_expired"}, ReviewFields)
    ensures "_expired" !in Project(row["_expired" := mark], ReviewFields)
  {
  }

  /** A topic added today is due today: a load that reads it that day marks
      it expired rather than giving it a reminder, and its
      date cell stays blank because it has never been reviewed. The add
      itself does not write the ledger (`_save_bg` is empty, app.py:1124),
      so the record reaches such a load only if a later handler writes. */
  lemma AddedTopicDueToday(ledger: seq<TopicRecord>, text: string, today: int, folderId: string)
    requires !AllSpace(text)
    ensures var r := AddTopic(ledger, text, today, folderId)[|ledger|];
      LoadActionFor(r.nextReview, today) == MarkExpired && NextReviewCell(r, today) == BlankCell
  {
  }

  /** A manual edit keeps the review history, and the edited date decides the
      next start-up: a future day gets a reminder, a past or present one is
      marked expired. */
  lemma ManualEditDecidesLoad(ledger: seq<TopicRecord>, i: nat, day: int, today: int)
    requires i < |ledger|
    ensures var r := ChangeNextReview(ledger, i, day)[i];
      && r.lastReview == ledger[i].lastReview
      && LoadActionFor(r.nextReview, today) == (if day > today then ScheduleOn(day) else MarkExpired)
      && (ledger[i].lastReview.Day? && day > today ==> NextReviewCell(r, today) == DatePicker(day))
  {
  }

  /** Marking a topic reviewed, rescheduling its reminder and storing the id
      the calendar returns (`mark_reviewed`, `_reschedule`, `_on_new_event`)
      leaves the record pointing at a reminder for its topic that ends on the
      new next-review day, shown there as a date picker. */
  lemma ReviewedTopicHasReminder(ledger: seq<TopicRecord>, log: seq<LogEntry>, i: nat, d: Difficulty, comment: string,
                                 today: int, cal: CalendarState, now: int, failing: set<EventId>)
    requires i < |ledger| && Valid(cal)
    requires !ledger[i].lastReview.Malformed?
    ensures var o := MarkReviewed(ledger, log, i, d, comment, today);
      && o.Reviewed?
      && var s := Reschedule(cal, ledger[i].topic, o.rescheduleFor, now, failing);
      && var l := SetEventId(o.ledger, i, Some(s.id));
      && l[i].eventId == Some(s.id)
      && s.id in s.cal.events
      && s.cal.events[s.id] == Event(Subject(l[i].topic), EventEnd(o.rescheduleFor))
      && l[i].nextReview == Day(o.rescheduleFor)
      && NextReviewCell(l[i], today) == DatePicker(o.rescheduleFor)
      && LoadActionFor(l[i].nextReview, today) == ScheduleOn(o.rescheduleFor)
  {
  }
}

=== FILE: reconcile.dfy ===
/**
  The ledger reconciler: the merge of the remote folder and file listing into
  the ledger (`_sync_csv_with_drive`) and the startup prune of the ledger and
  the study log to the listed topics (`_startup_sync`).
 */
module Reconcile {
  import opened Types
  import opened Seqs

  /** The download link the remote store serves for a file id. */
  const DownloadPrefix: string := "https://drive.google.com/uc?export=download&id="

  /** The ledger entry for a freshly listed file. */
  function FreshRef(l: Listed): FileRef
  {
    FileRef(l.id, l.name, DownloadPrefix + l.id)
  }

  function FreshRefs(listing: seq<Listed>): (refs: seq<FileRef>)
    ensures |refs| == |listing|
    ensures forall k :: 0 <= k < |listing| ==> refs[k] == FreshRef(listing[k])
  {
    seq(|listing|, k requires 0 <= k < |listing| => FreshRef(listing[k]))
  }

  /** The position of the last file called `name`, or -1 when there is none. */
  function LastNamed(files: seq<FileRef>, name: string): (k: int)
    ensures -1 <= k < |files|
    ensures k >= 0 ==> files[k].name == name
    ensures forall j :: k < j < |files| ==> files[j].name != name
  {
    LastKeyed(files, FileName, name)
  }

  /** The position of the last ledger row for `topic`, or -1: the row a dict
      keyed by topic keeps (app.py:499). */
  function LastRowFor(rows: seq<TopicRecord>, topic: string): (k: int)
    ensures -1 <= k < |rows|
    ensures k >= 0 ==> rows[k].topic == topic
    ensures forall j :: k < j < |rows| ==> rows[j].topic != topic
  {
    LastKeyed(rows, RecordTopic, topic)
  }

  /** The entry kept for a listed name: the last known entry of that name if
      there is one, else the last listed one. */
  function Pick(known: seq<FileRef>, latest: seq<FileRef>, name: string): FileRef
    requires LastNamed(latest, name) >= 0
  {
    var o := LastNamed(known, name);
    if o >= 0 then known[o] else latest[LastNamed(latest, name)]
  }

  /** The merged file list of one topic (app.py:509-525): one entry per listed
      name, in the order names first appear in the listing, each entry the
      last known one of that name or else the listed one. */
  function MergeFiles(known: seq<FileRef>, latest: seq<FileRef>): (m: seq<FileRef>)
    ensures Names(m) == Dedup(Names(latest))
    ensures forall n :: n in Names(m) <==> n in Names(latest)
    ensures forall a, b :: 0 <= a < b < |m| ==> m[a].name != m[b].name
    ensures forall k :: 0 <= k < |m| ==> LastNamed(latest, m[k].name) >= 0
    ensures forall k :: 0 <= k < |m| ==>
      var o := LastNamed(known, m[k].name);
      (o >= 0 ==> m[k] == known[o]) && (o < 0 ==> m[k] == latest[LastNamed(latest, m[k].name)])
  {
    var keys := Dedup(Names(latest));
    assert forall k :: 0 <= k < |keys| ==> keys[k] in Names(latest);
    var m := seq(|keys|, k requires 0 <= k < |keys| => Pick(known, latest, keys[k]));
    assert Names(m) == keys;
    m
  }

  /** One more listed file moves the last position of its own name only. */
  lemma LastNamedStep(files: seq<FileRef>, i: nat, n: string)
    requires i < |files|
    ensures LastNamed(files[..i + 1], n) == if files[i].name == n then i else LastNamed(files[..i], n)
  {
    assert files[..i + 1][..i] == files[..i];
  }

  lemma NamesStep(files: seq<FileRef>, i: nat)
    requires i < |files|
    ensures Names(files[..i + 1]) == Names(files[..i]) + [files[i].name]
  {
  }

  /** The state of the first overlay loop after `i` listed files: the dict
      keys in first-insertion order, each mapped to its last file so far. */
  ghost predicate IndexedUpTo(latest: seq<FileRef>, i: nat, keys: seq<string>, meta: map<string, FileRef>)
    requires i <= |latest|
  {
    IndexedKeys(latest, i, keys, meta) && IndexedValues(latest, i, meta)
  }

  /** The dict keys so far, in first-insertion order. */
  ghost predicate IndexedKeys(latest: seq<FileRef>, i: nat, keys: seq<string>, meta: map<string, FileRef>)
    requires i <= |latest|
  {
    && keys == Dedup(Names(latest[..i]))
    && (forall n :: n in meta <==> n in Names(latest[..i]))
  }

  /** Each key so far maps to its last file so far. */
  ghost predicate IndexedValues(latest: seq<FileRef>, i: nat, meta: map<string, FileRef>)
    requires i <= |latest|
  {
    forall n :: n in meta ==> LastNamed(latest[..i], n) >= 0 && meta[n] == latest[LastNamed(latest[..i], n)]
  }

  /** One more listed file keeps `IndexedUpTo`. */
  lemma IndexStep(latest: seq<FileRef>, i: nat, keys: seq<string>, meta: map<string, FileRef>)
    requires i < |latest| && IndexedUpTo(latest, i, keys, meta)
    ensures IndexedUpTo(latest, i + 1, if latest[i].name in meta then keys else keys + [latest[i].name],
                        meta[latest[i].name := latest[i]])
  {
    IndexKeysStep(latest, i, keys, meta);
    IndexValuesStep(latest, i, meta);
  }

  /** A new name is appended to the keys; a known one leaves them alone. */
  lemma IndexKeysStep(latest: seq<FileRef>, i: nat, keys: seq<string>, meta: map<string, FileRef>)
    requires i < |latest| && IndexedKeys(latest, i, keys, meta)
    ensures IndexedKeys(latest, i + 1, if latest[i].name in meta then keys else keys + [latest[i].name],
                        meta[latest[i].name := latest[i]])
  {
    NamesStep(latest, i);
    DedupSnoc(Names(latest[..i]), latest[i].name);
  }

  /** The file's name now maps to it, the last file of that name so far. */
  lemma IndexValuesStep(latest: seq<FileRef>, i: nat, meta: map<string, FileRef>)
    requires i < |latest| && IndexedValues(latest, i, meta)
    ensures IndexedValues(latest, i + 1, meta[latest[i].name := latest[i]])
  {
    var f := latest[i];
    forall n
      ensures LastNamed(latest[..i + 1], n) == if f.name == n then i else LastNamed(latest[..i], n)
    {
      LastNamedStep(latest, i, n);
    }
  }

  /** The first loop of the overlay: a dict from name to the last listed file
      of that name, with its keys in first-insertion order. */
  method IndexByName(latest: seq<FileRef>) returns (keys: seq<string>, meta: map<string, FileRef>)
    ensures keys == Dedup(Names(latest))
    ensures forall n :: n in meta <==> n in keys
    ensures forall n :: n in meta ==> LastNamed(latest, n) >= 0 && meta[n] == latest[LastNamed(latest, n)]
  {
    keys := [];
    meta := map[];
    var i := 0;
    while i < |latest|
      invariant 0 <= i <= |latest|
      invariant IndexedUpTo(latest, i, keys, meta)
    {
      var f := latest[i];
      IndexStep(latest, i, keys, meta);
      if f.name !in meta {
        keys := keys + [f.name];
      }
      meta := meta[f.name := f];
      i := i + 1;
    }
    assert latest[..i] == latest;
  }

  /** The dict overlay as the source performs it: fill a name-keyed dict from
      the listing, then overwrite the names it holds with the known entries,
      then take its values in key order. */
  method OverlayFiles(known: seq<FileRef>, latest: seq<FileRef>) returns (merged: seq<FileRef>)
    ensures merged == MergeFiles(known, latest)
  {
    var keys, meta := IndexByName(latest);
    var j := 0;
    while j < |known|
      invariant 0 <= j <= |known|
      invariant OverlaidUpTo(known, latest, j, keys, meta)
    {
      var f := known[j];
      OverlayStep(known, latest, j, keys, meta);
      if f.name in meta {
        meta := meta[f.name := f];
      }
      j := j + 1;
    }
    OverlayDone(known, latest, keys, meta);
    merged := seq(|keys|, k requires 0 <= k < |keys| => meta[keys[k]]);
  }

  /** The state of the second overlay loop after `j` known entries: every
      listed name holds its last known entry so far, else its listed file. */
  ghost predicate OverlaidUpTo(known: seq<FileRef>, latest: seq<FileRef>, j: nat, keys: seq<string>, meta: map<string, FileRef>)
  {
    && j <= |known|
    && (forall n :: n in meta <==> n in keys)
    && (forall n :: n in meta ==> LastNamed(latest, n) >= 0)
    && (forall n :: n in meta ==>
         meta[n] == if LastNamed(known[..j], n) >= 0 then known[LastNamed(known[..j], n)] else latest[LastNamed(latest, n)])
  }

  /** One more known entry keeps `OverlaidUpTo`. */
  lemma OverlayStep(known: seq<FileRef>, latest: seq<FileRef>, j: nat, keys: seq<string>, meta: map<string, FileRef>)
    requires j < |known| && OverlaidUpTo(known, latest, j, keys, meta)
    ensures OverlaidUpTo(known, latest, j + 1, keys,
                         if known[j].name in meta then meta[known[j].name := known[j]] else meta)
  {
    var f := known[j];
    forall n
      ensures LastNamed(known[..j + 1], n) == if f.name == n then j else LastNamed(known[..j], n)
    {
      LastNamedStep(known, j, n);
    }
  }

  /** After the last known entry the dict, read in key order, is the merged
      list. */
  lemma OverlayDone(known: seq<FileRef>, latest: seq<FileRef>, keys: seq<string>, meta: map<string, FileRef>)
    requires OverlaidUpTo(known, latest, |known|, keys, meta)
    requires keys == Dedup(Names(latest))
    ensures forall k :: 0 <= k < |keys| ==> keys[k] in meta
    ensures seq(|keys|, k requires 0 <= k < |keys| => meta[keys[k]]) == MergeFiles(known, latest)
  {
    assert known[..|known|] == known;
  }

  /** The merged ledger row for one listed folder (app.py:504-536). */
  function MergeRow(known: seq<TopicRecord>, folder: Folder, listing: seq<Listed>): (row: TopicRecord)
    ensures row.topic == folder.name && row.folderId == folder.id
    ensures row.files == MergeFiles(
      if LastRowFor(known, folder.name) >= 0 then known[LastRowFor(known, folder.name)].files else [],
      FreshRefs(listing))
    ensures LastRowFor(known, folder.name) >= 0 ==>
      var prev := known[LastRowFor(known, folder.name)];
      row.lastReview == prev.lastReview && row.nextReview == prev.nextReview && row.eventId == prev.eventId
    ensures LastRowFor(known, folder.name) < 0 ==>
      row.lastReview == Empty && row.nextReview == Empty && row.eventId == None
  {
    var p := LastRowFor(known, folder.name);
    if p >= 0 then
      var prev := known[p];
      TopicRecord(folder.name, MergeFiles(prev.files, FreshRefs(listing)),
                  prev.lastReview, prev.nextReview, prev.eventId, folder.id)
    else
      TopicRecord(folder.name, MergeFiles([], FreshRefs(listing)), Empty, Empty, None, folder.id)
  }

  /** `_sync_csv_with_drive`: one row per listed folder, in listing order.
      `filesIn` is the remote store's listing of each folder id. */
  function Merge(known: seq<TopicRecord>, folders: seq<Folder>, filesIn: string -> seq<Listed>): (rows: seq<TopicRecord>)
    ensures |rows| == |folders|
    ensures forall k :: 0 <= k < |folders| ==> rows[k] == MergeRow(known, folders[k], filesIn(folders[k].id))
  {
    seq(|folders|, k requires 0 <= k < |folders| => MergeRow(known, folders[k], filesIn(folders[k].id)))
  }

  /** No ghost files: after a merge every row lists exactly the names its
      folder holds, each once. */
  lemma MergedFilesMatchListing(known: seq<TopicRecord>, folders: seq<Folder>, filesIn: string -> seq<Listed>, k: nat)
    requires k < |folders|
    ensures var row := Merge(known, folders, filesIn)[k];
      && row.topic == folders[k].name
      && row.folderId == folders[k].id
      && (forall n :: n in Names(row.files) <==> n in ListedNames(filesIn(folders[k].id)))
      && Distinct(Names(row.files))
  {
    var row := Merge(known, folders, filesIn)[k];
    var listing := filesIn(folders[k].id);
    var latest := FreshRefs(listing);
    forall n
      ensures n in Names(latest) <==> n in ListedNames(listing)
    {
      if n in Names(latest) {
        var j :| 0 <= j < |latest| && Names(latest)[j] == n;
        assert listing[j] in listing;
      }
      if n in ListedNames(listing) {
        var l :| l in listing && l.name == n;
        var j :| 0 <= j < |listing| && listing[j] == l;
        assert Names(latest)[j] == n;
      }
    }
  }

  /** A topic that had no row before the merge starts with no review state:
      both dates empty, no event. */
  lemma NewTopicHasNoReviewState(known: seq<TopicRecord>, folders: seq<Folder>, filesIn: string -> seq<Listed>, k: nat)
    requires k < |folders|
    requires forall r :: r in known ==> r.topic != folders[k].name
    ensures var row := Merge(known, folders, filesIn)[k];
      row.lastReview == Empty && row.nextReview == Empty && row.eventId == None && row.files == MergeFiles([], FreshRefs(filesIn(folders[k].id)))
  {
  }

  /** In a list whose names are all different, the last entry of a name is
      the entry at that name's position. */
  lemma LastNamedDistinct(m: seq<FileRef>, k: nat)
    requires k < |m|
    requires forall a, b :: 0 <= a < b < |m| ==> m[a].name != m[b].name
    ensures LastNamed(m, m[k].name) == k
  {
  }

  /** Merging a merged file list again with the same listing changes nothing. */
  lemma {:induction false} MergeFilesIdempotent(known: seq<FileRef>, latest: seq<FileRef>)
    ensures MergeFiles(MergeFiles(known, latest), latest) == MergeFiles(known, latest)
  {
    var m1 := MergeFiles(known, latest);
    var m2 := MergeFiles(m1, latest);
    assert Names(m2) == Names(m1);
    assert |m2| == |m1|;
    forall k | 0 <= k < |m1|
      ensures m2[k] == m1[k]
    {
      LastNamedDistinct(m1, k);
      assert m2[k].name == m1[k].name;
    }
  }

  /** Folder names are pairwise different. */
  predicate DistinctNames(folders: seq<Folder>)
  {
    forall a, b :: 0 <= a < b < |folders| ==> folders[a].name != folders[b].name
  }

  /** Merging twice with the same listings gives the result of merging once,
      when no two listed folders share a name. (With a shared name the second
      merge reads the review state and files of the last such row for every
      folder of that name.) */
  lemma {:induction false} MergeIdempotent(known: seq<TopicRecord>, folders: seq<Folder>, filesIn: string -> seq<Listed>)
    requires DistinctNames(folders)
    ensures Merge(Merge(known, folders, filesIn), folders, filesIn) == Merge(known, folders, filesIn)
  {
    var m1 := Merge(known, folders, filesIn);
    var m2 := Merge(m1, folders, filesIn);
    forall k | 0 <= k < |folders|
      ensures m2[k] == m1[k]
    {
      MergeRowStable(known, folders, filesIn, k);
    }
  }

  /** One row of the second merge: the folder's own row is the last of its
      name, and overlaying its files once more changes nothing. */
  lemma MergeRowStable(known: seq<TopicRecord>, folders: seq<Folder>, filesIn: string -> seq<Listed>, k: nat)
    requires DistinctNames(folders) && k < |folders|
    ensures Merge(Merge(known, folders, filesIn), folders, filesIn)[k] == Merge(known, folders, filesIn)[k]
  {
    var m1 := Merge(known, folders, filesIn);
    var p := LastRowFor(m1, folders[k].name);
    assert m1[k].topic == folders[k].name;
    assert p == k;
    var q := LastRowFor(known, folders[k].name);
    var oldFiles := if q >= 0 then known[q].files else [];
    MergeFilesIdempotent(oldFiles, FreshRefs(filesIn(folders[k].id)));
  }

  /** Accepts the rows whose topic is in `listed`. */
  function ListedBy<T>(topicOf: T -> string, listed: set<string>): T -> bool
  {
    x => topicOf(x) in listed
  }

  /** The rows of `rows` whose topic is in `listed`, in their original order. */
  function KeepListed<T(!new)>(rows: seq<T>, topicOf: T -> string, listed: set<string>): (kept: seq<T>)
    ensures |kept| <= |rows|
    ensures forall x :: x in kept <==> x in rows && topicOf(x) in listed
  {
    Filter(rows, ListedBy(topicOf, listed))
  }

  /** Keeping is applied element by element, so it preserves order. */
  lemma KeepListedAppend<T(!new)>(a: seq<T>, b: seq<T>, topicOf: T -> string, listed: set<string>)
    ensures KeepListed(a + b, topicOf, listed) == KeepListed(a, topicOf, listed) + KeepListed(b, topicOf, listed)
  {
    FilterAppend(a, b, ListedBy(topicOf, listed));
  }

  /** Nothing is dropped exactly when every row's topic is listed. */
  lemma KeepListedAllIff<T(!new)>(rows: seq<T>, topicOf: T -> string, listed: set<string>)
    ensures |KeepListed(rows, topicOf, listed)| == |rows| <==> forall k :: 0 <= k < |rows| ==> topicOf(rows[k]) in listed
    ensures (forall k :: 0 <= k < |rows| ==> topicOf(rows[k]) in listed) ==> KeepListed(rows, topicOf, listed) == rows
  {
    FilterAllIff(rows, ListedBy(topicOf, listed));
  }

  /** Keeping twice is keeping once. */
  lemma KeepListedIdempotent<T(!new)>(rows: seq<T>, topicOf: T -> string, listed: set<string>)
    ensures KeepListed(KeepListed(rows, topicOf, listed), topicOf, listed) == KeepListed(rows, topicOf, listed)
  {
    FilterIdempotent(rows, ListedBy(topicOf, listed));
  }

  /** The outcome of the startup prune: the kept rows and whether each file
      is written back. */
  datatype Pruned = Pruned(ledger: seq<TopicRecord>, log: seq<LogEntry>, writeLedger: bool, writeLog: bool)

  /** `_startup_sync` steps 1-3: keep the ledger rows and log rows whose topic
      is a listed folder name; write a file back only when it lost rows. */
  function StartupPrune(ledger: seq<TopicRecord>, log: seq<LogEntry>, folders: seq<Folder>): (p: Pruned)
    ensures forall r :: r in p.ledger <==> r in ledger && r.topic in FolderNames(folders)
    ensures forall e :: e in p.log <==> e in log && e.topic in FolderNames(folders)
    ensures p.ledger == KeepListed(ledger, RecordTopic, FolderNames(folders))
    ensures p.log == KeepListed(log, EntryTopic, FolderNames(folders))
    ensures p.writeLedger <==> exists k :: 0 <= k < |ledger| && ledger[k].topic !in FolderNames(folders)
    ensures p.writeLog <==> exists k :: 0 <= k < |log| && log[k].topic !in FolderNames(folders)
  {
    var listed := FolderNames(folders);
    var kept := KeepListed(ledger, RecordTopic, listed);
    var keptLog := KeepListed(log, EntryTopic, listed);
    KeepListedAllIff(ledger, RecordTopic, listed);
    KeepListedAllIff(log, EntryTopic, listed);
    Pruned(kept, keptLog, |kept| != |ledger|, |keptLog| != |log|)
  }

  /** Pruning again with the same listing keeps everything and writes nothing. */
  lemma StartupPruneIdempotent(ledger: seq<TopicRecord>, log: seq<LogEntry>, folders: seq<Folder>)
    ensures var p := StartupPrune(ledger, log, folders);
      var q := StartupPrune(p.ledger, p.log, folders);
      q.ledger == p.ledger && q.log == p.log && !q.writeLedger && !q.writeLog
  {
    var p := StartupPrune(ledger, log, folders);
    KeepListedIdempotent(ledger, RecordTopic, FolderNames(folders));
    KeepListedIdempotent(log, EntryTopic, FolderNames(folders));
    forall k | 0 <= k < |p.ledger| ensures p.ledger[k].topic in FolderNames(folders) {
      assert p.ledger[k] in p.ledger;
    }
    forall k | 0 <= k < |p.log| ensures p.log[k].topic in FolderNames(folders) {
      assert p.log[k] in p.log;
    }
  }
}

=== FILE: schedule.dfy ===
/**
  The review-interval scheduler of `mark_reviewed` and the manual edit of a
  topic's next-review date.
 */
module Schedule {
  import opened Types

  /** Python's `round(x / 10)` on an integer `x`: the nearest integer, ties to
      the even neighbour. */
  function RoundTenths(x: int): (r: int)
    ensures 10 * r - 5 <= x <= 10 * r + 5
    ensures (x == 10 * r - 5 || x == 10 * r + 5) ==> r % 2 == 0
  {
    var q := x / 10;
    var rem := x % 10;
    if rem < 5 then q
    else if rem > 5 then q + 1
    else if q % 2 == 0 then q else q + 1
  }

  /** `r` is a round-half-to-even of `x / 10`. */
  predicate IsRoundedTenths(x: int, r: int)
  {
    && 10 * r - 5 <= x <= 10 * r + 5
    && ((x == 10 * r - 5 || x == 10 * r + 5) ==> r % 2 == 0)
  }

  /** There is only one such rounding, so `RoundTenths` is Python's `round`. */
  lemma RoundTenthsUnique(x: int, r: int)
    requires IsRoundedTenths(x, r)
    ensures r == RoundTenths(x)
  {
  }

  /** Rounding is monotone. */
  lemma {:induction false} RoundTenthsMonotone(x: int, y: int)
    requires x <= y
    ensures RoundTenths(x) <= RoundTenths(y)
  {
  }

  /** The first interval, in days: 1, 3 or 7 (app.py:990). */
  function BaseInterval(d: Difficulty): nat
  {
    match d
    case Difficult => 1
    case Medium => 3
    case Easy => 7
  }

  /** The growth factor in tenths: 1.2, 1.5 or 2.0 (app.py:996). */
  function GrowthTenths(d: Difficulty): nat
  {
    match d
    case Difficult => 12
    case Medium => 15
    case Easy => 20
  }

  /** Whole days since the last review, at least one. */
  function Elapsed(last: int, today: int): (e: int)
    ensures e >= 1 && e >= today - last
    ensures today - last >= 1 ==> e == today - last
    ensures today - last < 1 ==> e == 1
  {
    if today - last > 1 then today - last else 1
  }

  /** The interval after a repeat review: `max(1, round(elapsed * factor))`. */
  function RepeatInterval(elapsed: int, d: Difficulty): (days: int)
    requires elapsed >= 1
    ensures days >= 1
    ensures elapsed <= days <= 2 * elapsed
    ensures IsRoundedTenths(elapsed * GrowthTenths(d), days)
  {
    var r := RoundTenths(elapsed * GrowthTenths(d));
    if r > 1 then r else 1
  }

  /** The interval `mark_reviewed` computes from the last-review cell, or
      `None` when that cell is neither empty nor a valid date (the date
      conversion then raises). */
  function NextInterval(last: DateText, d: Difficulty, today: int): (days: Option<int>)
    ensures last.Empty? ==> days == Some(BaseInterval(d))
    ensures last.Day? ==> days.Some? && days.value >= Elapsed(last.n, today)
    ensures last.Day? ==> days == Some(RepeatInterval(Elapsed(last.n, today), d))
    ensures last.Malformed? <==> days.None?
    ensures days.Some? ==> days.value >= 1
  {
    match last
    case Empty => Some(BaseInterval(d))
    case Day(n) => Some(RepeatInterval(Elapsed(n, today), d))
    case Malformed(_) => None
  }

  /** For the same elapsed time, easier answers never give shorter intervals. */
  lemma {:induction false} IntervalMonotoneInDifficulty(elapsed: int)
    requires elapsed >= 1
    ensures RepeatInterval(elapsed, Difficult) <= RepeatInterval(elapsed, Medium) <= RepeatInterval(elapsed, Easy)
  {
    RoundTenthsMonotone(elapsed * 12, elapsed * 15);
    RoundTenthsMonotone(elapsed * 15, elapsed * 20);
  }

  /** First intervals are ordered the same way. */
  lemma BaseIntervalMonotone()
    ensures BaseInterval(Difficult) < BaseInterval(Medium) < BaseInterval(Easy)
  {
  }

  /** A longer gap since the last review never shortens the next interval. */
  lemma {:induction false} IntervalMonotoneInElapsed(e1: int, e2: int, d: Difficulty)
    requires 1 <= e1 <= e2
    ensures RepeatInterval(e1, d) <= RepeatInterval(e2, d)
  {
    RoundTenthsMonotone(e1 * GrowthTenths(d), e2 * GrowthTenths(d));
  }

  /** Any round-half-to-even of the scaled gap that is at least one is the
      repeat interval. */
  lemma RoundedInterval(elapsed: int, d: Difficulty, r: int)
    requires elapsed >= 1 && r >= 1
    requires IsRoundedTenths(elapsed * GrowthTenths(d), r)
    ensures RepeatInterval(elapsed, d) == r
  {
    RoundTenthsUnique(elapsed * GrowthTenths(d), r);
  }

  /** A scaled gap `12e` is never an odd multiple of five, so it has no tie. */
  lemma DifficultNoTie(elapsed: int, r: int)
    requires 10 * r <= 12 * elapsed + 5 < 10 * r + 10
    ensures IsRoundedTenths(12 * elapsed, r)
  {
  }

  /** Factor 1.2 never produces a tie: the interval is the nearest integer. */
  lemma {:induction false} DifficultIntervalExact(elapsed: int)
    requires elapsed >= 1
    ensures RepeatInterval(elapsed, Difficult) == (12 * elapsed + 5) / 10
  {
    var r := (12 * elapsed + 5) / 10;
    assert 10 * r <= 12 * elapsed + 5 < 10 * r + 10;
    DifficultNoTie(elapsed, r);
    assert elapsed * GrowthTenths(Difficult) == 12 * elapsed;
    RoundedInterval(elapsed, Difficult, r);
  }

  /** Factor 2.0 doubles the gap. */
  lemma {:induction false} EasyIntervalExact(elapsed: int)
    requires elapsed >= 1
    ensures RepeatInterval(elapsed, Easy) == 2 * elapsed
  {
    assert elapsed * GrowthTenths(Easy) == 20 * elapsed;
    RoundedInterval(elapsed, Easy, 2 * elapsed);
  }

  /** Factor 1.5 on an even gap `2m` is exact. */
  lemma MediumEvenGap(m: int)
    requires m >= 1
    ensures RepeatInterval(2 * m, Medium) == 3 * m
  {
    assert 2 * m * GrowthTenths(Medium) == 30 * m;
    RoundedInterval(2 * m, Medium, 3 * m);
  }

  /** Factor 1.5 on an odd gap `2m + 1` is the tie `3m + 1.5`, broken
      towards the even neighbour. */
  lemma MediumOddGap(m: int)
    requires m >= 0
    ensures RepeatInterval(2 * m + 1, Medium) == if (3 * m + 1) % 2 == 0 then 3 * m + 1 else 3 * m + 2
  {
    assert (2 * m + 1) * GrowthTenths(Medium) == 30 * m + 15;
    if (3 * m + 1) % 2 == 0 {
      RoundedInterval(2 * m + 1, Medium, 3 * m + 1);
    } else {
      assert (3 * m + 2) % 2 == 0;
      RoundedInterval(2 * m + 1, Medium, 3 * m + 2);
    }
  }

  /** Factor 1.5 on an odd gap is an exact tie, broken towards the even
      neighbour; on an even gap it is exact. */
  lemma {:induction false} MediumIntervalExact(elapsed: int)
    requires elapsed >= 1
    ensures elapsed % 2 == 0 ==> RepeatInterval(elapsed, Medium) == 3 * elapsed / 2
    ensures elapsed % 2 == 1 ==>
      var lo := (3 * elapsed - 1) / 2;
      RepeatInterval(elapsed, Medium) == if lo % 2 == 0 then lo else lo + 1
  {
    var m := elapsed / 2;
    if elapsed % 2 == 0 {
      assert elapsed == 2 * m;
      MediumEvenGap(m);
    } else {
      assert elapsed == 2 * m + 1;
      assert (3 * elapsed - 1) / 2 == 3 * m + 1;
      MediumOddGap(m);
    }
  }

  /** Seven days after the last review a Medium answer gives `round(10.5)`,
      which is 10, not 11. */
  lemma MediumSevenDays()
    ensures RepeatInterval(7, Medium) == 10
    ensures RepeatInterval(7, Difficult) == 8
    ensures RepeatInterval(7, Easy) == 14
  {
    MediumIntervalExact(7);
    DifficultIntervalExact(7);
    EasyIntervalExact(7);
  }

  /** What marking a topic reviewed leaves behind. When the last-review cell
      cannot be read as a date, the log entry has already been appended and the
      handler stops with the ledger untouched. */
  datatype ReviewOutcome =
    | Reviewed(ledger: seq<TopicRecord>, log: seq<LogEntry>, rescheduleFor: int)
    | Aborted(log: seq<LogEntry>)

  /** `mark_reviewed` on ledger position `i`, answered `d` with `comment`. */
  function MarkReviewed(ledger: seq<TopicRecord>, log: seq<LogEntry>, i: nat, d: Difficulty, comment: string, today: int)
    : (o: ReviewOutcome)
    requires i < |ledger|
    ensures o.log == log + [LogEntry(ledger[i].topic, today, d, comment)]
    ensures o.Aborted? <==> ledger[i].lastReview.Malformed?
    ensures o.Reviewed? ==>
      && |o.ledger| == |ledger|
      && (forall k :: 0 <= k < |ledger| && k != i ==> o.ledger[k] == ledger[k])
      && o.ledger[i].topic == ledger[i].topic
      && o.ledger[i].files == ledger[i].files
      && o.ledger[i].folderId == ledger[i].folderId
      && o.ledger[i].lastReview == Day(today)
      && o.ledger[i].nextReview == Day(o.rescheduleFor)
      && o.ledger[i].eventId == None
      && o.rescheduleFor > today
    ensures o.Reviewed? && ledger[i].lastReview.Empty? ==> o.rescheduleFor == today + BaseInterval(d)
    ensures o.Reviewed? && ledger[i].lastReview.Day? ==>
      o.rescheduleFor - today >= Elapsed(ledger[i].lastReview.n, today)
    ensures o.Reviewed? && ledger[i].lastReview.Day? ==>
      o.rescheduleFor == today + RepeatInterval(Elapsed(ledger[i].lastReview.n, today), d)
  {
    var entry := LogEntry(ledger[i].topic, today, d, comment);
    match NextInterval(ledger[i].lastReview, d, today)
    case None => Aborted(log + [entry])
    case Some(days) =>
      var r := ledger[i].(lastReview := Day(today), nextReview := Day(today + days), eventId := None);
      Reviewed(ledger[i := r], log + [entry], today + days)
  }

  /** A first review answered Easy on day D schedules day D + 7. */
  lemma FirstReviewScenario(rec: TopicRecord, today: int)
    requires rec.lastReview == Empty
    ensures var o := MarkReviewed([rec], [], 0, Easy, "", today);
      o.Reviewed? && o.ledger[0].lastReview == Day(today) && o.ledger[0].nextReview == Day(today + 7)
  {
  }

  /** Reviewed on day D, then Medium on day D + 7: the next review is D + 17. */
  lemma RepeatReviewScenario(rec: TopicRecord, d0: int)
    requires rec.lastReview == Day(d0)
    ensures var o := MarkReviewed([rec], [], 0, Medium, "", d0 + 7);
      o.Reviewed? && o.ledger[0].nextReview == Day(d0 + 17)
  {
    MediumSevenDays();
  }

  /** A manual edit of the next-review date (`next_review_changed`): the date
      is replaced and the stale event id cleared; the review history and every
      other record stay as they were. */
  function ChangeNextReview(ledger: seq<TopicRecord>, i: nat, day: int): (l: seq<TopicRecord>)
    requires i < |ledger|
    ensures |l| == |ledger|
    ensures forall k :: 0 <= k < |ledger| && k != i ==> l[k] == ledger[k]
    ensures l[i] == ledger[i].(nextReview := Day(day), eventId := None)
  {
    ledger[i := ledger[i].(nextReview := Day(day), eventId := None)]
  }

  /** `_on_new_event`: the id the calendar returned is stored on the record. */
  function SetEventId(ledger: seq<TopicRecord>, i: nat, id: Option<EventId>): (l: seq<TopicRecord>)
    requires i < |ledger|
    ensures |l| == |ledger|
    ensures forall k :: 0 <= k < |ledger| && k != i ==> l[k] == ledger[k]
    ensures l[i] == ledger[i].(eventId := id)
  {
    ledger[i := ledger[i].(eventId := id)]
  }
}

=== FILE: seqs.dfy ===
/**
  Sequence helpers shared by the ledger and cache code.
 */
module Seqs {

  predicate Distinct(s: seq<string>)
  {
    forall a, b :: 0 <= a < b < |s| ==> s[a] != s[b]
  }

  /** The keys of a Python dict filled from `s` in order: every element once,
      in the order of its first occurrence. */
  function Dedup(s: seq<string>): (r: seq<string>)
    ensures forall x :: x in r <==> x in s
    ensures Distinct(r)
    ensures |r| <= |s|
    decreases |s|
  {
    if |s| == 0 then []
    else
      var p := Dedup(s[..|s| - 1]);
      if s[|s| - 1] in s[..|s| - 1] then p else p + [s[|s| - 1]]
  }

  /** The key of every element, in order. */
  function KeysOf<T>(s: seq<T>, key: T -> string): (ks: seq<string>)
    ensures |ks| == |s|
    ensures forall k :: 0 <= k < |s| ==> ks[k] == key(s[k])
  {
    seq(|s|, k requires 0 <= k < |s| => key(s[k]))
  }

  /** The position of the last element whose key is `x`, or -1 when there is
      none: the element a dict keyed by `key` ends up holding for `x`. */
  function LastKeyed<T>(s: seq<T>, key: T -> string, x: string): (k: int)
    ensures -1 <= k < |s|
    ensures k >= 0 ==> key(s[k]) == x
    ensures forall j :: k < j < |s| ==> key(s[j]) != x
    decreases |s|
  {
    if |s| == 0 then -1
    else if key(s[|s| - 1]) == x then |s| - 1
    else LastKeyed(s[..|s| - 1], key, x)
  }

  /** The position of the first element whose key is `x`, or -1 when there
      is none. */
  function FirstKeyed<T>(s: seq<T>, key: T -> string, x: string): (k: int)
    ensures -1 <= k < |s|
    ensures k >= 0 ==> key(s[k]) == x
    ensures forall j :: 0 <= j < |s| && (k < 0 || j < k) ==> key(s[j]) != x
    decreases |s|
  {
    if |s| == 0 then -1
    else if key(s[0]) == x then 0
    else
      var r := FirstKeyed(s[1..], key, x);
      if r < 0 then -1 else r + 1
  }

  /** The elements of `s` that `keep` accepts, in their order: a list
      comprehension with a condition. */
  function Filter<T(!new)>(s: seq<T>, keep: T -> bool): (r: seq<T>)
    ensures forall x :: x in r <==> x in s && keep(x)
    ensures |r| <= |s|
    decreases |s|
  {
    if |s| == 0 then []
    else
      var rest := Filter(s[1..], keep);
      if keep(s[0]) then [s[0]] + rest else rest
  }

  /** Filtering works element by element: it keeps order and multiplicity. */
  lemma {:induction false} FilterAppend<T(!new)>(a: seq<T>, b: seq<T>, keep: T -> bool)
    ensures Filter(a + b, keep) == Filter(a, keep) + Filter(b, keep)
    decreases |a|
  {
    if |a| > 0 {
      assert (a + b)[1..] == a[1..] + b;
      FilterAppend(a[1..], b, keep);
    } else {
      assert a + b == b;
    }
  }

  /** Nothing is dropped exactly when every element is accepted, and then
      the result is the input itself. */
  lemma {:induction false} FilterAllIff<T(!new)>(s: seq<T>, keep: T -> bool)
    ensures |Filter(s, keep)| == |s| <==> forall k :: 0 <= k < |s| ==> keep(s[k])
    ensures (forall k :: 0 <= k < |s| ==> keep(s[k])) ==> Filter(s, keep) == s
    decreases |s|
  {
    if |s| > 0 {
      FilterAllIff(s[1..], keep);
      assert forall k :: 1 <= k < |s| ==> s[1..][k - 1] == s[k];
      assert s == [s[0]] + s[1..];
    }
  }

  /** Filtering twice is filtering once. */
  lemma FilterIdempotent<T(!new)>(s: seq<T>, keep: T -> bool)
    ensures Filter(Filter(s, keep), keep) == Filter(s, keep)
  {
    var r := Filter(s, keep);
    forall k | 0 <= k < |r|
      ensures keep(r[k])
    {
      assert r[k] in r;
    }
    FilterAllIff(r, keep);
  }

  /** Extending the input by one element extends the dict keys only when the
      element is new; this is the step of a loop that fills the dict. */
  lemma DedupSnoc(s: seq<string>, x: string)
    ensures Dedup(s + [x]) == if x in s then Dedup(s) else Dedup(s) + [x]
  {
    assert (s + [x])[..|s|] == s;
  }
}

=== FILE: text.dfy ===
/**
  The string operations the ledger code uses on topic names and search text:
  `str.strip()`, `str.lower()` and the substring test `t in s`.
 */
module Text {

  /** The characters Python's `str.isspace()` accepts. */
  predicate IsSpace(c: char)
  {
    || c == ' ' || c == '\t' || c == '\n' || c == '\r'
    || c == '\U{0B}' || c == '\U{0C}'
    || ('\U{1C}' <= c <= '\U{1F}')
    || c == '\U{85}' || c == '\U{A0}' || c == '\U{1680}'
    || ('\U{2000}' <= c <= '\U{200A}')
    || c == '\U{2028}' || c == '\U{2029}' || c == '\U{202F}'
    || c == '\U{205F}' || c == '\U{3000}'
  }

  predicate AllSpace(s: string)
  {
    forall k :: 0 <= k < |s| ==> IsSpace(s[k])
  }

  /** `s` with its leading white space removed. */
  function TrimStart(s: string): (r: string)
    ensures |r| <= |s| && r == s[|s| - |r|..]
    ensures AllSpace(s[..|s| - |r|])
    ensures |r| > 0 ==> !IsSpace(r[0])
    decreases |s|
  {
    if |s| > 0 && IsSpace(s[0]) then TrimStart(s[1..]) else s
  }

  /** `s` with its trailing white space removed. */
  function TrimEnd(s: string): (r: string)
    ensures |r| <= |s| && r == s[..|r|]
    ensures AllSpace(s[|r|..])
    ensures |r| > 0 ==> !IsSpace(r[|r| - 1])
    decreases |s|
  {
    if |s| > 0 && IsSpace(s[|s| - 1]) then TrimEnd(s[..|s| - 1]) else s
  }

  /** Python's `s.strip()`: a slice of `s` with white space at neither end,
      obtained by dropping only white space. */
  function Strip(s: string): (r: string)
    ensures exists i, j :: StripsTo(s, r, i, j)
    ensures |r| > 0 ==> !IsSpace(r[0]) && !IsSpace(r[|r| - 1])
  {
    var t := TrimStart(s);
    var r := TrimEnd(t);
    TrimsCompose(s, t, r);
    r
  }

  /** `r` is `s[i..j]` and everything outside that slice is white space. */
  predicate StripsTo(s: string, r: string, i: int, j: int)
  {
    0 <= i <= j <= |s| && r == s[i..j] && AllSpace(s[..i]) && AllSpace(s[j..])
  }

  /** Trimming the front and then the back cuts out a slice between white
      space. */
  lemma TrimsCompose(s: string, t: string, r: string)
    requires |t| <= |s| && t == s[|s| - |t|..] && AllSpace(s[..|s| - |t|])
    requires |r| <= |t| && r == t[..|r|] && AllSpace(t[|r|..])
    ensures StripsTo(s, r, |s| - |t|, |s| - |t| + |r|)
  {
    var i := |s| - |t|;
    var j := i + |r|;
    assert forall k :: 0 <= k < |t| ==> t[k] == s[i + k];
    assert r == s[i..j] by {
      assert forall k :: 0 <= k < |r| ==> r[k] == t[k];
    }
    assert AllSpace(s[j..]) by {
      var tail := t[|r|..];
      assert forall k :: 0 <= k < |s| - j ==> s[j..][k] == tail[k];
    }
  }

  /** Stripping leaves nothing exactly when the text is all white space. */
  lemma {:induction false} StripEmptyIff(s: string)
    ensures Strip(s) == [] <==> AllSpace(s)
  {
    var t := TrimStart(s);
    var r := TrimEnd(t);
    assert Strip(s) == r;
    var cut := |s| - |t|;
    if r == [] {
      assert t[|r|..] == t;
      assert t == [];
      assert s[..cut] == s;
    } else {
      assert r[0] == t[0] == s[cut];
    }
  }

  /** Python's `str.lower()` restricted to ASCII letters: an upper-case
      letter becomes the lower-case letter at the same place in the
      alphabet, and every other character is left alone. */
  function LowerChar(c: char): (d: char)
    ensures 'A' <= c <= 'Z' ==> 'a' <= d <= 'z' && d as int - 'a' as int == c as int - 'A' as int
    ensures !('A' <= c <= 'Z') ==> d == c
  {
    if 'A' <= c <= 'Z' then (c as int + 32) as char else c
  }

  function Lower(s: string): (r: string)
    ensures |r| == |s|
    ensures forall k :: 0 <= k < |s| ==> r[k] == LowerChar(s[k])
    ensures forall k :: 0 <= k < |s| && !('A' <= s[k] <= 'Z') ==> r[k] == s[k]
    ensures forall k :: 0 <= k < |r| ==> !('A' <= r[k] <= 'Z')
  {
    seq(|s|, k requires 0 <= k < |s| => LowerChar(s[k]))
  }

  /** Lower-casing twice is lower-casing once. */
  lemma LowerIdempotent(s: string)
    ensures Lower(Lower(s)) == Lower(s)
  {
  }

  /** Python's `t in s` on strings: `t` occurs as a contiguous slice of `s`. */
  predicate Contains(s: string, t: string)
  {
    exists k | 0 <= k <= |s| - |t| :: OccursAt(s, t, k)
  }

  predicate OccursAt(s: string, t: string, k: int)
    requires 0 <= k <= |s| - |t|
  {
    s[k..k + |t|] == t
  }

  /** `t` is in `s` exactly when `s` splits into some text, then `t`, then
      some more text. */
  lemma ContainsIff(s: string, t: string)
    ensures Contains(s, t) <==> exists a: string, b: string :: s == a + t + b
  {
    if Contains(s, t) {
      var k :| 0 <= k <= |s| - |t| && OccursAt(s, t, k);
      assert s == s[..k] + t + s[k + |t|..];
    }
    if exists a: string, b: string :: s == a + t + b {
      var a: string, b: string :| s == a + t + b;
      assert OccursAt(s, t, |a|);
    }
  }

  /** The empty text is in every text. */
  lemma ContainsEmpty(s: string)
    ensures Contains(s, [])
  {
    assert OccursAt(s, [], 0);
  }
}

=== FILE: types.dfy ===
/**
  The records of the review ledger and the review log, with dates abstracted to
  day numbers. A ledger row is a `TopicRecord`, a log row a `LogEntry`; what the
  remote store lists is given as `Folder` and `Listed` values.
 */
module Types {
  import opened Seqs

  datatype Option<+T> = None | Some(value: T)

  /** The text of a date cell: empty, a valid yyyy-MM-dd date (as its day
      number), or any other text. For other text, `blank` says whether it is
      white space only, so that stripping it leaves nothing. */
  datatype DateText = Empty | Day(n: int) | Malformed(blank: bool)
  {
    /** The cell text is falsy (Python `not s`). */
    predicate IsEmpty() { Empty? }

    /** The cell text is falsy once stripped (Python `not s.strip()`). */
    predicate IsBlank() { Empty? || (Malformed? && blank) }
  }

  /** The three answers of the "How was this revision?" dialog. */
  datatype Difficulty = Difficult | Medium | Easy

  /** A document of a topic folder, as stored in the ledger's JSON file list. */
  datatype FileRef = FileRef(id: string, name: string, link: string)

  /** Calendar event ids; the ledger's empty calendar_event_id is `None`. */
  type EventId = nat

  /** One ledger row: the six columns of the review ledger. */
  datatype TopicRecord = TopicRecord(
    topic: string,
    files: seq<FileRef>,
    lastReview: DateText,
    nextReview: DateText,
    eventId: Option<EventId>,
    folderId: string)

  /** One row of the append-only study log. */
  datatype LogEntry = LogEntry(topic: string, reviewDate: int, difficulty: Difficulty, comment: string)

  /** A topic folder as listed under the shared root folder. */
  datatype Folder = Folder(id: string, name: string)

  /** A file as listed inside a topic folder. */
  datatype Listed = Listed(id: string, name: string)

  function RecordTopic(r: TopicRecord): string { r.topic }

  function EntryTopic(e: LogEntry): string { e.topic }

  function FileName(f: FileRef): string { f.name }

  function FolderName(f: Folder): string { f.name }

  function ListedName(l: Listed): string { l.name }

  /** The names of a sequence of files, in order. */
  function Names(files: seq<FileRef>): (ns: seq<string>)
    ensures |ns| == |files|
    ensures forall k :: 0 <= k < |files| ==> ns[k] == files[k].name
  {
    KeysOf(files, FileName)
  }

  /** The set of names in a folder listing. */
  function ListedNames(listing: seq<Listed>): set<string>
  {
    set l | l in listing :: l.name
  }

  /** The set of topic names in a folder listing. */
  function FolderNames(folders: seq<Folder>): set<string>
  {
    set f | f in folders :: f.name
  }
}
